=== FILE: README.md ===
# video-downloader-frontend, modelled in Dafny

The React front end of a video downloader. A user pastes a URL and the page
decides whether it is a single video or a playlist. It looks up metadata,
and it asks a backend conversion service for the file. The file is then
saved through a temporary anchor with a `download` name. A playlist is
downloaded item by item, and the user can cancel between items. Around this
sit a few pure helpers:
- display formatters for durations, view counts, dates and byte sizes;
- a playlist checkbox selection;
- premium-plan pricing and expiry;
- a UPI payment deep link.

This project models that logic as pure functions over immutable datatypes.
Each `await fetch(...)` becomes an input reply: `Ok(body)`, `NotOk` (the
response is not ok), or `Threw(name, message)` (the fetch or the body read
threw). The UPI verification call never looks at the status, so its reply is
`Answered(body)` or `Failed(message)` instead. Each handler returns its new
state together with the requests it issued, in order. The abort signal of the playlist batch is an index
`cancelAt`: the loop sees the signal set at the check in front of item `i`
exactly when `i >= cancelAt`. Clock readings and storage outcomes are
parameters: `Date.now()` as milliseconds, and `new Date().toISOString()` of
the UPI verification request as its string.

Modules follow the source files:

| module | file |
|---|---|
| `UrlClassifier` | the two playlist detectors (DownloadFormBeautiful, DownloadForm) |
| `FormBeautiful` | DownloadFormBeautiful: URL lookup, batch loop, submit, cancel |
| `FormSimple` | DownloadForm: fetch-info guard and direct-link download |
| `PlaylistSelection` | PlaylistViewer |
| `MetadataPreview` | MetadataPreview |
| `ByteFormat` | `formatBytes` of DownloadProgress and DownloadProgressModal |
| `ProgressModal`, `ProgressPanel` | DownloadProgressModal, DownloadProgress |
| `App` | App.js |
| `Premium` | PremiumSection |
| `UpiPayment` | UPIPayment |
| `Outcomes`, `Text`, `Decimal`, `Media` | shared: `Option`/`Reply`, JavaScript string built-ins, exact-rational number rendering, the backend's records |

Notable behaviour of the code, which the model keeps:
- The batch keeps no saved or failed counts.
- After a batch that ran to the end, the banner always announces all N
  videos. This holds even when some replies were not ok and fewer files
  were saved. `FormBeautiful.OkCountBelowLength` makes the gap concrete.
- The loop's own abort check throws a plain `Error`, so it is reported as
  "❌ Error: Download cancelled". Only an abort that reaches an in-flight
  fetch gives "⚠️ Download cancelled".
- A fetch that throws inside the loop ends the whole batch, because the
  `catch` is outside the loop. A reply that is only not ok skips its item.
- DownloadForm's `handleDownload` has no blank-URL guard.

## Model

| member | source | states |
|---|---|---|
| UrlClassifier.ClassifyStrict | src/components/DownloadFormBeautiful.js:48-50 | a URL is a playlist exactly when `playlist?list=`, `/playlist/` or `&list=` occurs at some position of it |
| UrlClassifier.ClassifyLoose | src/components/DownloadForm.js:15-17 | a URL is a playlist exactly when `list=` or `playlist` occurs at some position of it |
| UrlClassifier.StrictImpliesLoose | src/components/DownloadForm.js:15-17 | every URL the first detector calls a playlist, the second does too |
| UrlClassifier.LooseIsStrictlyWeaker | src/components/DownloadForm.js:15-17 | the converse fails: `?list=PL1` is a playlist only for the second detector |
| UrlClassifier.WatchUrlWithListIsPlaylist | src/components/DownloadFormBeautiful.js:48-50 | a URL containing `&list=` anywhere is a playlist for the first detector |
| Text.ContainsIffOccurs | src/components/DownloadFormBeautiful.js:48-50 | `includes` holds exactly when the substring occurs at some index |
| Text.Contains | src/components/DownloadFormBeautiful.js:48-50 | `includes`: the empty string occurs in every string, and nothing longer than the string occurs in it |
| Text.TrimEmptyIffBlank | src/components/DownloadFormBeautiful.js:36 | `trim()` is empty exactly when every character is JavaScript whitespace |
| Text.Trim | src/components/DownloadFormBeautiful.js:36 | `trim()` gives the slice of the string left after cutting whitespace at both ends, and neither end of it is whitespace |
| Text.ParseNatToString | src/components/MetadataPreview.js:34 | a rendered non-negative integer reads back as itself |
| Text.IntToStringRoundTrip | src/components/UPIPayment.js:15 | a rendered integer, sign included, reads back as itself |
| FormBeautiful.InitialSettings | src/components/DownloadFormBeautiful.js:5-9 | the form starts at MP4 video in 720p with 128k for audio, and premium as the prop says; its first request asks for 720p and no audio quality |
| FormBeautiful.InitialState | src/components/DownloadFormBeautiful.js:6-21 | nothing is entered, loaded or running, and there is no abort controller yet |
| FormBeautiful.ProxyRequestFor | src/components/DownloadFormBeautiful.js:107-113 | the request carries the URL, the format and `isPremium`; resolution is null exactly for audio and audio quality null exactly for video |
| FormBeautiful.PlaylistFilename | src/components/DownloadFormBeautiful.js:122 | a batch item is saved as its title followed by ".mp3" exactly for audio, else ".mp4" |
| FormBeautiful.SingleFilename | src/components/DownloadFormBeautiful.js:189 | a single download is saved as "audio.mp3" exactly for audio and "video.mp4" exactly for video |
| FormBeautiful.UrlChanged | src/components/DownloadFormBeautiful.js:32-86 | a blank URL clears metadata, playlist and metadata error and issues no lookup. Otherwise exactly one lookup is made: to the playlist endpoint iff the URL is a playlist. `isPlaylist` ends true iff that playlist lookup succeeded. Each failure has its own message, and `metadataLoading` ends false. A playlist lookup leaves the metadata as it was. Only the URL and the lookup fields change; the download state and the settings do not |
| FormBeautiful.SavedFiles | src/components/DownloadFormBeautiful.js:117-129 | one saved file per ok reply, in order: as many files as ok replies |
| FormBeautiful.DownloadPlaylistVideos | src/components/DownloadFormBeautiful.js:88-146 | items are requested in list order, one request each, carrying the item's URL. Nothing is requested once the abort signal is seen. A not-ok reply only skips its item. Exactly the ok items are saved. The batch ends at the list end, at the abort check, or right after a thrown fetch, each with its own banner. The run counts as ended on an abort exactly when the check saw the signal or the ending fetch threw an `AbortError`. Saves never exceed requests |
| FormBeautiful.ProgressStep | src/components/DownloadFormBeautiful.js:95-130 | an item answered without an exception extends the ordered request list by its request and the saves by its file iff ok |
| FormBeautiful.CompletedRunContract | src/components/DownloadFormBeautiful.js:132-136 | a batch that ran to the end announces "All N downloads completed" for the list length N and keeps `loading` set |
| FormBeautiful.CancelledRunContract | src/components/DownloadFormBeautiful.js:98-100 | a batch stopped by the abort check has requested exactly the items in front of it and reports the cancellation error |
| FormBeautiful.ThrewRunContract | src/components/DownloadFormBeautiful.js:138-145 | a thrown fetch ends the batch with the abort notice for an `AbortError` and "❌ Error: " plus the message otherwise, and clears `loading` |
| FormBeautiful.OkCountBelowLength | src/components/DownloadFormBeautiful.js:132 | with one not-ok reply fewer files are saved than the N the banner announces |
| FormBeautiful.SubmitSingle | src/components/DownloadFormBeautiful.js:156-213 | a fresh abort controller is made. A blank URL fails with "Please paste a URL" before any request, clearing the success banner and keeping URL and metadata. Otherwise one request is made, and the fixed-name file is saved iff the reply is ok. Success clears URL, metadata and the error; each failure has its own message, clears `loading` and the success banner, and keeps URL and metadata. Settings, playlist and the lookup fields never change. The controller counts as aborted exactly when the reply was an `AbortError` |
| FormBeautiful.AfterBatch | src/components/DownloadFormBeautiful.js:88-146 | a finished batch shows its banner and leaves `loading` as the run left it; nothing but the banners, `loading` and the controller changes; the fresh controller counts as aborted exactly when the run ended on an abort |
| FormBeautiful.Submit | src/components/DownloadFormBeautiful.js:148-154 | with a loaded playlist the whole batch runs: the requests, the saved files and the final state are those of a run meeting the batch contract over the playlist's videos; otherwise the URL is downloaded once |
| FormBeautiful.Cancel | src/components/DownloadFormBeautiful.js:23-30 | cancel aborts the current controller if there is one, stops loading and shows the cancellation notice; nothing else changes |
| FormSimple.FetchMetadata | src/components/DownloadForm.js:19-53 | a blank URL only sets "Please enter a URL". A playlist URL goes to the parent with no request and no state change. Otherwise one metadata request is made: on failure metadata stays empty with an error set, and `loading` ends false on every path |
| FormSimple.InitialState | src/components/DownloadForm.js:8-13 | the form starts with an empty URL, mp4 at quality "720", not loading, no error and no metadata |
| FormSimple.LinkFilename | src/components/DownloadForm.js:75 | the name is the title followed by ".mp3" exactly for audio, else ".mp4" |
| FormSimple.Download | src/components/DownloadForm.js:55-87 | the request always carries URL, format and quality, blank or not. An anchor opens iff the reply is ok, with the link and the derived name. Failures show the reason; `loading` ends false. Nothing but `loading` and the error changes |
| PlaylistSelection.Without | src/components/PlaylistViewer.js:8 | filtering keeps every copy of every other id, in order, and no copy of the removed one |
| PlaylistSelection.ToggleVideo | src/components/PlaylistViewer.js:6-10 | a selected id is removed with all its copies while every other entry keeps its multiplicity and order; an unselected one is appended at the end; no other id changes membership |
| PlaylistSelection.ToggleAbsentTwice | src/components/PlaylistViewer.js:6-10 | toggling an unselected id twice restores the selection exactly |
| PlaylistSelection.ToggleTwiceKeepsMembers | src/components/PlaylistViewer.js:6-10 | toggling any id twice keeps the same set of selected ids |
| PlaylistSelection.ToggleKeepsNoDuplicates | src/components/PlaylistViewer.js:6-10 | toggling keeps the selection free of duplicates |
| PlaylistSelection.ToggleAll | src/components/PlaylistViewer.js:12-18 | when the selection is as long as the playlist it is cleared; otherwise every id is selected in playlist order |
| PlaylistSelection.DownloadSelected | src/components/PlaylistViewer.js:20-25 | the batch handed on is a subsequence of the playlist holding each video whose id is selected as many times as the playlist lists it, and no other |
| PlaylistSelection.DownloadSelectedIgnoresOrder | src/components/PlaylistViewer.js:20-25 | two selections with the same ids give the same batch, whatever their order or repetitions |
| PlaylistSelection.ControlsFor | src/components/PlaylistViewer.js:36-62 | "Download selected" is enabled iff something is selected and nothing loads. The other controls are disabled while loading. The select-all label is "✓ Deselect All" exactly when every video is selected, and "☐ Select All" otherwise, and it names what pressing it does |
| MetadataPreview.Render | src/components/MetadataPreview.js:3-75 | nothing is shown iff metadata, loading and error are all absent. Loading wins over an error, which wins over the card. The card shows each field through its formatter, with the uploader defaulting to "Unknown"; the thumbnail is shown exactly when present, and it is the metadata's own |
| MetadataPreview.FormatDuration | src/components/MetadataPreview.js:30-35 | "Unknown" exactly for a missing or zero duration |
| MetadataPreview.DurationRoundTrip | src/components/MetadataPreview.js:32-34 | "m:ss" of a positive duration reads back as m*60+ss = s with ss < 60 and two digits |
| MetadataPreview.UnknownDurationUnreadable | src/components/MetadataPreview.js:31 | the placeholder never reads as a duration |
| MetadataPreview.FormatViews | src/components/MetadataPreview.js:37-42 | "No data" exactly for missing or zero views |
| MetadataPreview.ScaledViews | src/components/MetadataPreview.js:39-40 | a scaled count is at least four characters, ends in its unit letter and cannot be mistaken for "No data" |
| MetadataPreview.MillionsWithinHalfTenth | src/components/MetadataPreview.js:39 | above a million the text ends in "M", and its one-decimal number is within half a tenth of the count in millions |
| MetadataPreview.ThousandsWithinHalfTenth | src/components/MetadataPreview.js:40 | above a thousand up to a million the text ends in "K", and its one-decimal number is within half a tenth of the count in thousands |
| MetadataPreview.SmallCountExact | src/components/MetadataPreview.js:41 | up to a thousand the count is shown as it is |
| MetadataPreview.OneMillionInThousands | src/components/MetadataPreview.js:39-40 | the million threshold is strict: exactly one million views reads as 10000 tenths of a thousand, with "K" |
| MetadataPreview.IsoDate | src/components/MetadataPreview.js:27 | from eight or more characters the date string is the year, month and day slices joined by dashes |
| MetadataPreview.IsoDateRoundTrip | src/components/MetadataPreview.js:27 | an eight-character date without dashes is passed on whole and in order |
| MetadataPreview.FormatDate | src/components/MetadataPreview.js:25-28 | "Unknown date" exactly for a missing or empty date, otherwise the dashed date |
| Decimal.RoundHalfUp | src/components/DownloadProgress.js:12 | `Math.round`: the result is within half a unit of the exact quotient, halves going up |
| Decimal.RoundReal | src/components/UPIPayment.js:14 | `Math.round` of a real: the nearest integer, halves going up |
| Decimal.RoundRealOfRatio | src/components/DownloadProgress.js:12 | rounding a fraction as a real gives the same integer as the integer half-up rounding |
| Decimal.CeilDiv | src/components/PremiumSection.js:102 | `Math.ceil` of a quotient: the least multiple of the divisor at or above the dividend |
| Decimal.Fixed1 | src/components/MetadataPreview.js:39-40 | `toFixed(1)`: digits, a point and exactly one digit |
| Decimal.Fixed2 | src/components/PremiumSection.js:79-81 | `toFixed(2)`: digits, a point and exactly two digits |
| Decimal.Fixed1RoundTrip | src/components/MetadataPreview.js:39-40 | `toFixed(1)` text reads back as the tenths it was made from |
| Decimal.Fixed2RoundTrip | src/components/PremiumSection.js:79-81 | `toFixed(2)` text reads back as the hundredths it was made from |
| Decimal.PadStart2Value | src/components/MetadataPreview.js:34 | two-digit padding of a number below 100 is two digits worth that number |
| Decimal.Hundredths | src/components/DownloadProgress.js:12 | the default rendering of a magnitude in hundredths has a decimal point exactly when it is not whole |
| Decimal.HundredthsRoundTrip | src/components/DownloadProgress.js:12 | the shortest rendering of a two-decimal number reads back as its hundredths |
| ByteFormat.UnitIndex | src/components/DownloadProgressModal.js:11 | for bytes > 0 the unit index i satisfies 1024^i ≤ bytes < 1024^(i+1) |
| ByteFormat.UnitIndexUnique | src/components/DownloadProgress.js:9-11 | no other index satisfies that bracket |
| ByteFormat.Label | src/components/DownloadProgressModal.js:10 | a table label exactly for indices below four |
| ByteFormat.Magnitude | src/components/DownloadProgressModal.js:12 | the magnitude in hundredths is within half a hundredth of bytes / 1024^i and lies between 1.00 and 1024.00 |
| ByteFormat.FormatBytes | src/components/DownloadProgressModal.js:7-13 | zero bytes is "0 Bytes" |
| ByteFormat.SmallCountExact | src/components/DownloadProgressModal.js:10-12 | below 1024 the text is the count itself followed by " Bytes" |
| ByteFormat.HugeCountUnlabelled | src/components/DownloadProgressModal.js:10 | from 1024^4 on the unit is "undefined" |
| ByteFormat.FormatBytesReadsBack | src/components/DownloadProgress.js:7-13 | below 1024^4 the text reads back as a unit whose power brackets the size and a magnitude within half a hundredth of it |
| ProgressModal.StrokeOffset | src/components/DownloadProgressModal.js:40 | the offset is 440 at 0 %, 0 at 100 %, and within [0, 440] exactly for progress within [0, 100] |
| ProgressModal.StrokeOffsetRoundTrip | src/components/DownloadProgressModal.js:40 | the offset determines the progress it was drawn for |
| ProgressModal.StrokeOffsetDecreasing | src/components/DownloadProgressModal.js:40 | more progress draws more of the ring |
| ProgressModal.Status | src/components/DownloadProgressModal.js:68-70 | the status reads "Download complete!" exactly when progress is 100 |
| ProgressModal.Modal | src/components/DownloadProgressModal.js:15-70 | nothing is rendered exactly when the modal is closed; open, it shows both formatted sizes, the ring for the progress and its status, which reads complete exactly at 100 |
| ProgressPanel.Panel | src/components/DownloadProgress.js:15-48 | the progress section appears exactly while loading; the error and the success message appear exactly when non-empty and not loading |
| ProgressPanel.ProgressExcludesMessages | src/components/DownloadProgress.js:24-47 | the progress section and the messages are never shown together |
| App.InitialState | src/App.js:5-10 | nothing is entered or loaded, and the selection starts at 480p video, which names the file "video_480p.mp4" |
| App.GetInfo | src/App.js:14-39 | a blank URL alerts and issues no request. Otherwise one request is made; a failure alerts and keeps the previous metadata. `loading` ends false |
| App.AppFilename | src/App.js:70-74 | audio is "audio.mp3"; video is "video_" + quality + "p.mp4" |
| App.FilenameNamesQuality | src/App.js:73 | two qualities give the same video filename only when they are equal |
| App.Download | src/App.js:41-87 | a blank URL alerts, issues no request and never raises `downloading`. Otherwise the body is {url, format, quality}, quality included for audio, and the file is saved iff the reply is ok. Each outcome has its alert, and `downloading` ends false; nothing else in the state changes |
| App.DurationText | src/App.js:133 | the text ends in " minutes" |
| App.DurationTextWholeMinutes | src/App.js:133 | the number shown is the whole minutes m of the duration d: 60m ≤ d < 60m + 60 |
| App.ShownViews | src/App.js:137 | missing views are shown as 0 |
| Premium.CountryCurrenciesHaveRates | src/components/PremiumSection.js:4-32 | every currency a country maps to has a rate entry |
| Premium.DetectCurrency | src/components/PremiumSection.js:43-57 | a known country gets its currency; an unknown code or a failed lookup gets "INR"; the result always has a rate |
| Premium.CurrencySymbol | src/components/PremiumSection.js:143-144 | the table's symbol, or the rupee sign without a rate |
| Premium.BasePrice | src/components/PremiumSection.js:68-76 | 30→199, 90→499, 180→899, 365→1499, anything else 199 |
| Premium.OfferedDurationsArePriced | src/components/PremiumSection.js:89-96 | every offered duration has its own plan price, and longer offers cost more |
| Premium.PriceCents | src/components/PremiumSection.js:75-83 | without a rate the rupee price is unconverted; with one the cents are within half a cent of price × rate |
| Premium.RupeePricesExact | src/components/PremiumSection.js:23 | rupee prices are the plan prices exactly |
| Premium.GetPrice | src/components/PremiumSection.js:75-83 | the price is shown as digits, a point and exactly two digits |
| Premium.GetPriceReadsBack | src/components/PremiumSection.js:75-83 | the price text reads back as its cents; without a rate, as the rupee price |
| Premium.RemainingDays | src/components/PremiumSection.js:98-104 | no answer without a record; otherwise never negative, positive exactly before expiry, and then the ceiling of the remaining days |
| Premium.Activation | src/components/PremiumSection.js:114-125 | expiry = start + days × 86,400,000 ms; the record is "active" with the chosen days, method and currency |
| Premium.ActivationCountdown | src/components/PremiumSection.js:98-125 | within a day of activation the countdown shows the purchased days |
| Premium.InitialState | src/components/PremiumSection.js:35-41 | no record, no payment form, card payment, a 30-day plan that has a price, and rupees, which have a rate |
| Premium.HandlePayment | src/components/PremiumSection.js:106-141 | when storing works the activation record is stored, shown and reported upward with a success message. Otherwise nothing is stored and the failure message shows. Processing ends either way, and no other field changes |
| UpiPayment.UpiLink | src/components/UPIPayment.js:13-17 | the link starts with the payee and payee-name parameters |
| UpiPayment.UpiLinkReadsBack | src/components/UPIPayment.js:13-17 | the link carries the price rounded to an integer, the day count and the clock reading, and each reads back |
| UpiPayment.InitiatePayment | src/components/UPIPayment.js:19-23 | the browser is sent to that link and the transaction form appears |
| UpiPayment.SubmitTransaction | src/components/UPIPayment.js:25-74 | a blank id only sets an error. Otherwise the id, amount, days, currency, UPI id and the clock's ISO timestamp are posted. Backend success passes them on with "pending_verification". Otherwise the backend message or "Verification pending" is shown, a thrown request shows its message, and submitting ends false |

## Left out

- Browser I/O is not modelled: fetch, blobs and object URLs, anchor clicks, `localStorage`, the ipapi.co lookup, `window.location`, the clipboard, `alert` and console logging. Requests and replies are explicit inputs and outputs; storage success, `Date.now()` and the verification request's `toISOString()` timestamp are parameters.
- Timers are not modelled: the `setTimeout` clearing of messages and of `loading`, the 500 ms pacing between batch items, the 2 s payment delay and the delayed `onClose`. The batch's success therefore ends with `loading` still set.
- An abort that reaches an in-flight fetch appears only as a `Threw` reply named `AbortError`. When an abort lands relative to a request is not modelled.
- The batch loop reads the controller afresh at every abort check, so a newer download that replaces the controller can hide an earlier cancel. That interleaving of two handlers is concurrency and is not modelled: one batch runs against one controller.
- Out-of-order replies to `handleUrlChange` are not modelled: each URL change is taken to finish before the next one.
- JSON parsing failures of a response body count as a `Threw` reply.
- Rendering beyond the visibility rules listed above is not modelled: styles, hover handlers, selector `onChange` handlers, the premium-gated option lists, the active-premium panel and its payment-method labels, App's "Get Info" button label.
- Sizes, view counts and durations are non-negative integers. Negative, fractional, missing-as-NaN (except App's duration) and non-number values are not modelled.
- ByteFormat.UnitIndex: the exact floor of the base-1024 logarithm. `Math.log` rounding near exact powers of 1024 is not modelled.
- Decimal.RoundHalfUp: exact rational rounding. Binary floating-point ties of `toFixed` and `Math.round` are not modelled.
- Premium.PriceCents: rates are exact decimals. The floating-point product is not modelled.
- MetadataPreview.FormatDate: stops at the string handed to `new Date`. `toLocaleDateString` depends on the browser's locale and is not modelled.
- App.ShownViews: gives the number handed to `toLocaleString`. The locale's digit grouping is not modelled.
- ProgressModal.Modal: shows the sizes formatted from the current props. The single render before the effect first copies them into state is not modelled.
- ProgressPanel.Panel: shows the sizes formatted from the current props. The single render before the effect first copies them into state is not modelled.
- Premium.DetectCurrency: only the country-code strings the table lists, or others, are modelled. JavaScript object lookups of inherited keys such as "constructor" are not modelled.
- The start and expiry dates are kept as millisecond instants, not as their ISO strings.
- AboutSection, Navigation, HeroSection and DownloadingBar are static markup. downloadService holds fire-and-forget request wrappers with no logic. None of them is part of this model.

=== FILE: app.dfy ===
/** App: the original single-page downloader with a "Get Info" step and a
    proxied download named after the chosen quality. */
module App {
  import opened Outcomes
  import opened Text
  import opened Media

  /** The component's state. */
  datatype AppState = AppState(
    url: string,
    metadata: Option<Metadata>,
    loading: bool,
    quality: string,
    format: Format,
    downloading: bool)

  /** Nothing entered or loaded; the selection starts at 480p video. */
  function InitialState(): (st: AppState)
    ensures st.url == "" && st.metadata.None? && !st.loading && !st.downloading
    ensures st.quality == "480" && st.format == VideoFormat
    ensures AppFilename(st.format, st.quality) == "video_480p.mp4"
  {
    AppState("", None, false, "480", VideoFormat, false)
  }

  const EnterUrlAlert: string := "Please enter a URL"
  const InfoFailedAlert: string := "Failed to fetch video info. Make sure URL is valid."

  /** `handleGetInfo`'s outcome: the new state, the URL posted to the
      metadata endpoint if any, and the alert shown if any. */
  datatype InfoStep = InfoStep(state: AppState, requested: Option<string>, alert: Option<string>)

  /** `handleGetInfo`, `reply` being the metadata endpoint's answer if asked. */
  function GetInfo(st: AppState, reply: Reply<Metadata>): (r: InfoStep)
    // blank: alert, no request, nothing changes
    ensures IsBlank(st.url) ==> r == InfoStep(st, None, Some(EnterUrlAlert))
    ensures !IsBlank(st.url) ==>
              && r.requested == Some(st.url)
              && !r.state.loading
              && (reply.Ok? ==> r.state.metadata == Some(reply.body) && r.alert.None?)
              // a failure keeps whatever was shown before
              && (!reply.Ok? ==> r.state.metadata == st.metadata && r.alert == Some(InfoFailedAlert))
    ensures r.state.url == st.url && r.state.format == st.format && r.state.quality == st.quality
    ensures r.state.downloading == st.downloading
  {
    TrimEmptyIffBlank(st.url);
    if Trim(st.url) == "" then InfoStep(st, None, Some(EnterUrlAlert))
    else
      var pending := st.(loading := true);
      match reply
      case Ok(m) => InfoStep(pending.(metadata := Some(m), loading := false), Some(st.url), None)
      case _ => InfoStep(pending.(loading := false), Some(st.url), Some(InfoFailedAlert))
  }

  /** The body posted to /api/download-proxy: the quality is sent whatever the format. */
  datatype DownloadRequest = DownloadRequest(url: string, format: Format, quality: string)

  /** The saved file's name: fixed for audio, quality-tagged for video. */
  function AppFilename(format: Format, quality: string): (name: string)
    ensures format == AudioFormat ==> name == "audio.mp3"
    ensures format == VideoFormat ==>
              && |name| == |quality| + 11
              && name[..6] == "video_" && name[6..6 + |quality|] == quality
              && name[6 + |quality|..] == "p.mp4"
  {
    match format
    case AudioFormat => "audio.mp3"
    case VideoFormat => "video_" + quality + "p.mp4"
  }

  /** A video filename names the quality it was requested at: the quality
      can be read back from it. */
  lemma FilenameNamesQuality(q1: string, q2: string)
    requires AppFilename(VideoFormat, q1) == AppFilename(VideoFormat, q2)
    ensures q1 == q2
  {
    var n := AppFilename(VideoFormat, q1);
    assert q1 == n[6..|n| - 5] == q2;
  }

  const StartedAlert: string := "Download started!"
  const DownloadFailedAlert: string := "Download failed. Please try again."

  /** `handleDownload`'s outcome. `downloadingShown` records whether the
      downloading flag was raised at any point. */
  datatype DownloadStep = DownloadStep(
    state: AppState,
    request: Option<DownloadRequest>,
    saved: Option<SavedFile>,
    alert: string,
    downloadingShown: bool)

  /** `handleDownload`, `reply` being the proxy's answer (its blob is not
      modelled) if asked. */
  function Download(st: AppState, reply: Reply<()>): (r: DownloadStep)
    ensures IsBlank(st.url) ==>
              r == DownloadStep(st, None, None, EnterUrlAlert, false)
    ensures !IsBlank(st.url) ==>
              && r.request == Some(DownloadRequest(st.url, st.format, st.quality))
              && r.downloadingShown && !r.state.downloading
              && (reply.Ok? <==> r.saved.Some?)
              && (reply.Ok? ==> r.saved.value.filename == AppFilename(st.format, st.quality) && r.alert == StartedAlert)
              && (!reply.Ok? ==> r.alert == DownloadFailedAlert)
    ensures r.state.metadata == st.metadata && r.state.url == st.url
    // a download attempt touches nothing in the state but the `downloading` flag
    ensures !IsBlank(st.url) ==> r.state == st.(downloading := false)
  {
    TrimEmptyIffBlank(st.url);
    if Trim(st.url) == "" then DownloadStep(st, None, None, EnterUrlAlert, false)
    else
      var request := DownloadRequest(st.url, st.format, st.quality);
      var done := st.(downloading := false);
      match reply
      case Ok(_) => DownloadStep(done, Some(request), Some(SavedFile(AppFilename(st.format, st.quality))), StartedAlert, true)
      case _ => DownloadStep(done, Some(request), None, DownloadFailedAlert, true)
  }

  /** `Math.floor(duration / 60)` followed by " minutes"; a missing duration
      divides to NaN. */
  function DurationText(duration: Option<nat>): (text: string)
    ensures |text| > 8 && text[|text| - 8..] == " minutes"
  {
    match duration
    case Some(d) => NatToString(d / 60) + " minutes"
    case None => "NaN minutes"
  }

  /** The minutes shown are the whole minutes of the duration. */
  lemma DurationTextWholeMinutes(d: nat)
    ensures var text := DurationText(Some(d));
            && ParseNat(text[..|text| - 8]).Some?
            && var m := ParseNat(text[..|text| - 8]).value;
               m * 60 <= d < m * 60 + 60
  {
    var text := DurationText(Some(d));
    assert text[..|text| - 8] == NatToString(d / 60);
    ParseNatToString(d / 60);
  }

  /** `metadata.views || 0`: the number handed to `toLocaleString`. */
  function ShownViews(views: Option<nat>): (n: nat)
    ensures views.Some? ==> n == views.value
    ensures views.None? ==> n == 0
  {
    match views
    case Some(v) => v
    case None => 0
  }
}

=== FILE: byte_format.dfy ===
/** `formatBytes`, written identically in DownloadProgress and
    DownloadProgressModal: a byte count as a magnitude below 1024 with two
    decimals at most, followed by a binary unit. */
module ByteFormat {
  import opened Outcomes
  import opened Text
  import opened Decimal

  const K: nat := 1024

  /** 1024 to the power `i`. */
  function Pow(i: nat): (p: nat)
    ensures p >= 1
  {
    if i == 0 then 1 else K * Pow(i - 1)
  }

  /** `Math.floor(Math.log(bytes) / Math.log(1024))`, taken exactly: the
      number of whole factors of 1024 in `bytes`. */
  function UnitIndex(bytes: nat): (i: nat)
    requires bytes > 0
    ensures Pow(i) <= bytes < Pow(i + 1)
    decreases bytes
  {
    if bytes < K then 0
    else
      var j := UnitIndex(bytes / K);
      assert K * Pow(j) <= K * (bytes / K) <= bytes;
      assert bytes < K * (bytes / K + 1) <= K * Pow(j + 1);
      j + 1
  }

  /** Powers of 1024 grow strictly, so the bracket in `UnitIndex` fixes `i`. */
  lemma {:induction false} PowStrictlyIncreasing(i: nat, j: nat)
    requires i < j
    ensures Pow(i) < Pow(j)
    decreases j
  {
    if i < j - 1 {
      PowStrictlyIncreasing(i, j - 1);
    }
  }

  /** The unit index is the only `i` whose power bracket holds `bytes`. */
  lemma UnitIndexUnique(bytes: nat, i: nat)
    requires bytes > 0 && Pow(i) <= bytes < Pow(i + 1)
    ensures UnitIndex(bytes) == i
  {
    var u := UnitIndex(bytes);
    if u < i {
      if u + 1 < i { PowStrictlyIncreasing(u + 1, i); }
    } else if u > i {
      if i + 1 < u { PowStrictlyIncreasing(i + 1, u); }
    }
  }

  const Sizes: seq<string> := ["Bytes", "KB", "MB", "GB"]

  /** `sizes[i]`: past the end of the table JavaScript yields `undefined`,
      which the concatenation spells out. */
  function Label(i: nat): (name: string)
    ensures i < |Sizes| <==> name in Sizes
  {
    if i < |Sizes| then Sizes[i] else "undefined"
  }

  const ZeroBytes: string := "0 Bytes"

  /** `Math.round(bytes / 1024^i * 100)`: the magnitude in hundredths, rounded
      half up; it lies between 1.00 and 1024.00. */
  function Magnitude(bytes: nat): (h: nat)
    requires bytes > 0
    ensures var p := Pow(UnitIndex(bytes));
            2 * p * h - p <= 200 * bytes < 2 * p * h + p
    ensures 100 <= h <= 100 * K
  {
    var i := UnitIndex(bytes);
    var p := Pow(i);
    var q := RoundHalfUp(100 * bytes, p);
    assert p * 100 <= 100 * bytes < p * (100 * K);
    MagnitudeBounds(p, bytes, q);
    q
  }

  lemma MagnitudeBounds(p: nat, bytes: nat, q: int)
    requires p >= 1
    requires p * 100 <= 100 * bytes < p * (100 * K)
    requires 2 * p * q - p <= 200 * bytes < 2 * p * q + p
    ensures 100 <= q <= 100 * K
  {
    assert p * (199 - 2 * q) < 0;
    NonNegativeProduct(p, 199 - 2 * q);
    assert p * (2 * q - 1 - 200 * K) < 0;
    NonNegativeProduct(p, 2 * q - 1 - 200 * K);
  }

  /** `formatBytes(bytes)`. */
  function FormatBytes(bytes: nat): (text: string)
    ensures bytes == 0 ==> text == ZeroBytes
  {
    if bytes == 0 then ZeroBytes
    else Hundredths(Magnitude(bytes)) + " " + Label(UnitIndex(bytes))
  }

  /** Below 1024 the count is shown exactly, in bytes. */
  lemma SmallCountExact(bytes: nat)
    requires 0 < bytes < K
    ensures FormatBytes(bytes) == NatToString(bytes) + " Bytes"
  {
    MagnitudeOfSmall(bytes);
    HundredthsOfWhole(bytes);
  }

  lemma MagnitudeOfSmall(bytes: nat)
    requires 0 < bytes < K
    ensures UnitIndex(bytes) == 0 && Magnitude(bytes) == 100 * bytes
  {
    RoundHalfUpExact(100 * bytes, 1);
    assert 100 * bytes * 1 == 100 * bytes;
  }

  /** From 1024^4 on the unit table has no entry. */
  lemma HugeCountUnlabelled(bytes: nat)
    requires bytes >= Pow(4)
    ensures UnitIndex(bytes) >= 4 && Label(UnitIndex(bytes)) == "undefined"
  {
    var i := UnitIndex(bytes);
    if i < 4 {
      if i + 1 < 4 { PowStrictlyIncreasing(i + 1, 4); }
    }
  }

  /** The unit named by a label, if the label is one of the table's. */
  function LabelIndex(name: string): (i: Option<nat>)
    ensures i.Some? ==> i.value < |Sizes| && Sizes[i.value] == name
  {
    if name == Sizes[0] then Some(0)
    else if name == Sizes[1] then Some(1)
    else if name == Sizes[2] then Some(2)
    else if name == Sizes[3] then Some(3)
    else None
  }

  /** Reads "<number> <unit>" back as hundredths of the unit and the unit's index. */
  function ParseSize(text: string): Option<(nat, nat)> {
    match SplitAt(text, ' ')
    case Some((number, unit)) =>
      (match (ParseHundredths(number), LabelIndex(unit))
       case (Some(h), Some(i)) => Some((h, i))
       case _ => None)
    case None => None
  }

  /** Below 1024^4 the text reads back as a unit and a magnitude within half a
      hundredth of the unit of the true size. */
  lemma FormatBytesReadsBack(bytes: nat)
    requires 0 < bytes < Pow(4)
    ensures ParseSize(FormatBytes(bytes)).Some?
    ensures var (h, i) := ParseSize(FormatBytes(bytes)).value;
            && Pow(i) <= bytes < Pow(i + 1)
            && 2 * Pow(i) * h - Pow(i) <= 200 * bytes < 2 * Pow(i) * h + Pow(i)
  {
    var i := UnitIndex(bytes);
    var h := Magnitude(bytes);
    LabelledBelowPow4(bytes);
    SizeTextReadsBack(h, i);
  }

  /** Below 1024^4 the unit index names an entry of the table. */
  lemma LabelledBelowPow4(bytes: nat)
    requires 0 < bytes < Pow(4)
    ensures UnitIndex(bytes) < |Sizes|
  {
    var i := UnitIndex(bytes);
    if i > 4 { PowStrictlyIncreasing(4, i); }
  }

  lemma SizeTextReadsBack(h: nat, i: nat)
    requires i < |Sizes|
    ensures ParseSize(Hundredths(h) + " " + Label(i)) == Some((h, i))
  {
    var number := Hundredths(h);
    HundredthsAvoids(h, ' ');
    assert number + " " + Label(i) == number + [' '] + Label(i);
    SplitAtJoin(number, ' ', Label(i));
    HundredthsRoundTrip(h);
    LabelIndexRoundTrip(i);
  }

  lemma LabelIndexRoundTrip(i: nat)
    requires i < |Sizes|
    ensures LabelIndex(Label(i)) == Some(i)
  {
    assert Sizes[0] != Sizes[1] && Sizes[0] != Sizes[2] && Sizes[0] != Sizes[3];
    assert Sizes[1] != Sizes[2] && Sizes[1] != Sizes[3] && Sizes[2] != Sizes[3];
  }
}

=== FILE: decimal.dfy ===
/** Exact-rational versions of the numeric renderings the components use:
    `Math.round`, `toFixed(1)`, `toFixed(2)` and the default `String(x)` of a
    number with at most two decimals. Each rendering has a reader that
    recovers the scaled integer it was made from. */
module Decimal {
  import opened Outcomes
  import opened Text

  /** The integer nearest to `num / den`, halves rounded up: `Math.round`,
      and the tie rule of `toFixed`. */
  function RoundHalfUp(num: int, den: nat): (q: int)
    requires den > 0
    ensures 2 * den * q - den <= 2 * num < 2 * den * q + den
    ensures num >= 0 ==> q >= 0
  {
    var q := (2 * num + den) / (2 * den);
    assert 2 * den * q <= 2 * num + den < 2 * den * q + 2 * den by {
      var m := (2 * num + den) % (2 * den);
      assert 2 * num + den == 2 * den * q + m && 0 <= m < 2 * den;
    }
    q
  }

  /** Euclidean division has one quotient: any `q` with `a - d < d * q <= a` is it. */
  lemma DivUnique(a: int, d: int, q: int, m: int)
    requires d > 0 && a == d * q + m && 0 <= m < d
    ensures a / d == q
  {
    var q' := a / d;
    var m' := a % d;
    assert a == d * q' + m' && 0 <= m' < d;
    assert d * (q - q' - 1) == m' - m - d && d * (q' - q - 1) == m - m' - d;
    NonNegativeProduct(d, q - q' - 1);
    NonNegativeProduct(d, q' - q - 1);
  }

  /** A product with a non-negative factor keeps the sign of the other. */
  lemma NonNegativeProduct(p: nat, x: int)
    ensures x >= 0 ==> p * x >= 0
  {
  }

  /** A rounded value is exact when the division is. */
  lemma RoundHalfUpExact(n: int, den: nat)
    requires den > 0
    ensures RoundHalfUp(n * den, den) == n
  {
    assert 2 * (n * den) + den == (2 * den) * n + den;
    DivUnique(2 * (n * den) + den, 2 * den, n, den);
  }

  /** `Math.round(x)` of a real: the nearest integer, halves rounded up. */
  function RoundReal(x: real): (n: int)
    ensures (n as real) - 0.5 <= x < (n as real) + 0.5
  {
    (x + 0.5).Floor
  }

  /** The two forms of `Math.round` agree: rounding the real ratio gives the
      integer half-up rounding of the fraction. */
  lemma RoundRealOfRatio(num: int, den: nat)
    requires den > 0
    ensures RoundReal(num as real / den as real) == RoundHalfUp(num, den)
  {
    var x := num as real / den as real;
    var n := RoundReal(x);
    assert x * (den as real) == num as real;
    HalfUnitBracket(n, den, num, x);
    HalfBracketUnique(den, n, RoundHalfUp(num, den), 2 * num);
  }

  /** `x = num / den` within half a unit of `n` puts `2 * num` within `den`
      of `2 * den * n`. */
  lemma HalfUnitBracket(n: int, den: nat, num: int, x: real)
    requires den > 0
    requires x * (den as real) == num as real
    requires (n as real) - 0.5 <= x < (n as real) + 0.5
    ensures 2 * den * n - den <= 2 * num < 2 * den * n + den
  {
    LowerHalf(n, den, x);
    UpperHalf(n, den, x);
    IntegerBracket(n * den, den, num);
    assert 2 * den * n == 2 * (n * den);
  }

  lemma LowerHalf(n: int, den: nat, x: real)
    requires (n as real) - 0.5 <= x
    ensures (n * den) as real - 0.5 * (den as real) <= x * (den as real)
  {
    ScaleLe((n as real) - 0.5, x, den as real);
    assert (n * den) as real == (n as real) * (den as real);
  }

  lemma UpperHalf(n: int, den: nat, x: real)
    requires den > 0 && x < (n as real) + 0.5
    ensures x * (den as real) < (n * den) as real + 0.5 * (den as real)
  {
    ScaleLt(x, (n as real) + 0.5, den as real);
    assert (n * den) as real == (n as real) * (den as real);
  }

  lemma IntegerBracket(k: int, den: int, num: int)
    requires (k as real) - 0.5 * (den as real) <= num as real < (k as real) + 0.5 * (den as real)
    ensures 2 * k - den <= 2 * num < 2 * k + den
  {
  }

  lemma ScaleLe(a: real, b: real, c: real)
    requires a <= b && c >= 0.0
    ensures a * c <= b * c
  {
  }

  lemma ScaleLt(a: real, b: real, c: real)
    requires a < b && c > 0.0
    ensures a * c < b * c
  {
  }

  /** At most one integer `a` has `v` within half a unit of `2 * d * a`. */
  lemma HalfBracketUnique(d: nat, a: int, b: int, v: int)
    requires d > 0
    requires 2 * d * a - d <= v < 2 * d * a + d
    requires 2 * d * b - d <= v < 2 * d * b + d
    ensures a == b
  {
    assert 2 * d * (a - b - 1) < 0 && 2 * d * (b - a - 1) < 0;
    NonNegativeProduct(2 * d, a - b - 1);
    NonNegativeProduct(2 * d, b - a - 1);
  }

  /** `Math.ceil(a / d)` for a positive `d`. */
  function CeilDiv(a: int, d: nat): (q: int)
    requires d > 0
    ensures d * q - d < a <= d * q
  {
    var f := (-a) / d;
    assert d * f <= -a < d * f + d by {
      var m := (-a) % d;
      assert -a == d * f + m && 0 <= m < d;
    }
    -f
  }

  // ---------------------------------------------------------------------------
  // toFixed(1) and toFixed(2) of tenths and hundredths
  // ---------------------------------------------------------------------------

  /** `x.toFixed(1)` for x = tenths / 10. */
  function Fixed1(tenths: nat): (text: string)
    ensures |text| >= 3 && text[|text| - 2] == '.' && IsDigit(text[|text| - 1])
    ensures AllDigits(text[..|text| - 2])
  {
    var whole := NatToString(tenths / 10);
    var text := whole + "." + [DigitChar(tenths % 10)];
    assert text[..|text| - 2] == whole;
    text
  }

  /** `x.toFixed(2)` for x = hundredths / 100. */
  function Fixed2(hundredths: nat): (text: string)
    ensures |text| >= 4 && text[|text| - 3] == '.' && AllDigits(text[|text| - 2..])
    ensures AllDigits(text[..|text| - 3])
  {
    var whole := NatToString(hundredths / 100);
    var frac := PadStart2(NatToString(hundredths % 100));
    PadStart2Value(hundredths % 100);
    var text := whole + "." + frac;
    assert text[..|text| - 3] == whole && text[|text| - 2..] == frac;
    text
  }

  /** Reads "<digits>.<d>" back as tenths. */
  function ParseFixed1(s: string): Option<nat> {
    match SplitAt(s, '.')
    case Some((whole, frac)) =>
      if |frac| == 1 && IsDigit(frac[0]) then
        match ParseNat(whole)
        case Some(w) => Some(w * 10 + DigitValue(frac[0]))
        case None => None
      else None
    case None => None
  }

  /** Reads "<digits>.<dd>" back as hundredths. */
  function ParseFixed2(s: string): Option<nat> {
    match SplitAt(s, '.')
    case Some((whole, frac)) =>
      if |frac| == 2 && AllDigits(frac) then
        match ParseNat(whole)
        case Some(w) => Some(w * 100 + DigitsValue(frac))
        case None => None
      else None
    case None => None
  }

  lemma Fixed1RoundTrip(tenths: nat)
    ensures ParseFixed1(Fixed1(tenths)) == Some(tenths)
  {
    var whole := NatToString(tenths / 10);
    assert '.' !in whole;
    SplitAtJoin(whole, '.', [DigitChar(tenths % 10)]);
    ParseNatToString(tenths / 10);
  }

  /** Two zero-padded digits read back as the number they render. */
  lemma PadStart2Value(n: nat)
    requires n < 100
    ensures |PadStart2(NatToString(n))| == 2 && AllDigits(PadStart2(NatToString(n)))
    ensures DigitsValue(PadStart2(NatToString(n))) == n
  {
    ParseNatToString(n);
    var s := NatToString(n);
    if n < 10 {
      assert PadStart2(s) == "0" + s;
      LeadingZeroValue(s);
    } else {
      assert |NatToString(n / 10)| == 1;
    }
  }

  lemma Fixed2RoundTrip(hundredths: nat)
    ensures ParseFixed2(Fixed2(hundredths)) == Some(hundredths)
  {
    var whole := NatToString(hundredths / 100);
    var frac := PadStart2(NatToString(hundredths % 100));
    assert '.' !in whole;
    PadStart2Value(hundredths % 100);
    assert Fixed2(hundredths) == whole + ['.'] + frac;
    SplitAtJoin(whole, '.', frac);
    ParseNatToString(hundredths / 100);
  }

  // ---------------------------------------------------------------------------
  // The default rendering of a number with at most two decimals
  // ---------------------------------------------------------------------------

  /** `String(h / 100)`: no fraction when it is whole, otherwise the shortest
      fraction (one digit when the hundredths digit is zero). */
  function Hundredths(h: nat): (text: string)
    ensures '.' in text <==> h % 100 != 0
  {
    HundredthsText(h / 100, h % 100)
  }

  /** The rendering of `whole + frac / 100`. */
  function HundredthsText(whole: nat, frac: nat): (text: string)
    requires frac < 100
    ensures '.' in text <==> frac != 0
  {
    var w := NatToString(whole);
    assert '.' !in w by {
      forall i | 0 <= i < |w| ensures w[i] != '.' { assert IsDigit(w[i]); }
    }
    if frac == 0 then w
    else if frac % 10 == 0 then
      var text := w + "." + [DigitChar(frac / 10)];
      assert text[|w|] == '.';
      text
    else
      var text := w + "." + PadStart2(NatToString(frac));
      assert text[|w|] == '.';
      text
  }

  /** Reads an integer with an optional one- or two-digit fraction back as hundredths. */
  function ParseHundredths(s: string): Option<nat> {
    match SplitAt(s, '.')
    case None =>
      (match ParseNat(s)
       case Some(w) => Some(w * 100)
       case None => None)
    case Some((whole, frac)) =>
      if 1 <= |frac| <= 2 && AllDigits(frac) then
        match ParseNat(whole)
        case Some(w) => Some(w * 100 + (if |frac| == 1 then DigitValue(frac[0]) * 10 else DigitsValue(frac)))
        case None => None
      else None
  }

  lemma HundredthsRoundTrip(h: nat)
    ensures ParseHundredths(Hundredths(h)) == Some(h)
  {
    HundredthsTextRoundTrip(h / 100, h % 100);
  }

  lemma HundredthsTextRoundTrip(whole: nat, frac: nat)
    requires frac < 100
    ensures ParseHundredths(HundredthsText(whole, frac)) == Some(whole * 100 + frac)
  {
    var w := NatToString(whole);
    ParseNatToString(whole);
    assert '.' !in w;
    if frac == 0 {
      assert SplitAt(w, '.') == None;
    } else if frac % 10 == 0 {
      var f := [DigitChar(frac / 10)];
      assert HundredthsText(whole, frac) == w + ['.'] + f;
      SplitAtJoin(w, '.', f);
      assert DigitValue(f[0]) * 10 == frac;
    } else {
      var f := PadStart2(NatToString(frac));
      PadStart2Value(frac);
      assert HundredthsText(whole, frac) == w + ['.'] + f;
      SplitAtJoin(w, '.', f);
    }
  }

  /** Only digits and a point appear in a rendered number. */
  lemma HundredthsAvoids(h: nat, c: char)
    requires !IsDigit(c) && c != '.'
    ensures c !in Hundredths(h)
  {
    assert c !in NatToString(h / 100);
    assert c !in PadStart2(NatToString(h % 100));
  }

  /** A whole number of units is written without a fraction. */
  lemma HundredthsOfWhole(n: nat)
    ensures Hundredths(100 * n) == NatToString(n)
  {
    assert (100 * n) / 100 == n && (100 * n) % 100 == 0;
  }
}

=== FILE: form_beautiful.dfy ===
/** DownloadFormBeautiful: metadata lookup while the URL is typed, the single
    download on submit, the sequential playlist batch and the cancel button.
    Every `await fetch(...)` is replaced by a reply supplied as an input; each
    handler returns the requests it issued, in order, next to the new state. */
module FormBeautiful {
  import opened Outcomes
  import opened Text
  import opened Media
  import opened UrlClassifier

  // ---------------------------------------------------------------------------
  // Settings, requests and messages
  // ---------------------------------------------------------------------------

  /** The form's selectors and the `isPremium` prop. */
  datatype Settings = Settings(format: Format, resolution: string, audioQuality: string, isPremium: bool)

  /** MP4 video at 720p, with 128k kept for audio; premium as the prop says. */
  function InitialSettings(isPremium: bool): (s: Settings)
    ensures s.format == VideoFormat && s.resolution == "720p" && s.audioQuality == "128k"
    ensures s.isPremium == isPremium
    ensures ProxyRequestFor("", s).resolution == Some("720p") && ProxyRequestFor("", s).audioQuality.None?
  {
    Settings(VideoFormat, "720p", "128k", isPremium)
  }

  /** The body posted to the download proxy. */
  datatype ProxyRequest = ProxyRequest(
    url: string, format: Format, resolution: Option<string>, audioQuality: Option<string>, isPremium: bool)

  /** The body both the single and the batch download send: the quality field
      of the format not selected is `null`. */
  function ProxyRequestFor(url: string, s: Settings): (r: ProxyRequest)
    ensures r.url == url && r.format == s.format && r.isPremium == s.isPremium
    ensures r.resolution.None? <==> s.format == AudioFormat
    ensures r.audioQuality.None? <==> s.format == VideoFormat
    ensures r.resolution.Some? ==> r.resolution.value == s.resolution
    ensures r.audioQuality.Some? ==> r.audioQuality.value == s.audioQuality
  {
    ProxyRequest(
      url, s.format,
      if s.format == AudioFormat then None else Some(s.resolution),
      if s.format == AudioFormat then Some(s.audioQuality) else None,
      s.isPremium)
  }

  /** The extension the anchor's `download` name gets for a format. */
  function Extension(format: Format): string {
    if format == AudioFormat then ".mp3" else ".mp4"
  }

  /** A playlist item is saved under its title with the format's extension:
      the name starts with the title and ends with ".mp3" exactly for audio. */
  function PlaylistFilename(title: string, format: Format): (name: string)
    ensures |name| == |title| + 4 && name[..|title|] == title
    ensures name[|title|..] == ".mp3" <==> format == AudioFormat
    ensures name[|title|..] == ".mp4" <==> format == VideoFormat
  {
    title + Extension(format)
  }

  /** A single download is saved under a fixed name that ignores the title. */
  function SingleFilename(format: Format): (name: string)
    ensures name == "audio.mp3" <==> format == AudioFormat
    ensures name == "video.mp4" <==> format == VideoFormat
  {
    match format
    case AudioFormat => "audio.mp3"
    case VideoFormat => assert "video.mp4"[0] != "audio.mp3"[0]; "video.mp4"
  }

  /** What a caught error turns into: an `AbortError` (the fetch or the body
      read was aborted) is the cancellation notice, anything else is shown
      with its message. */
  const CancelledNotice: string := "⚠️ Download cancelled"

  function ErrorText(name: string, message: string): string {
    if name == AbortErrorName then CancelledNotice else "❌ Error: " + message
  }

  /** The batch loop's own abort check throws `new Error('Download cancelled')`,
      whose name is "Error", so it is reported as an error with that message. */
  const CancelledAtCheck: string := "❌ Error: Download cancelled"

  function AllCompletedMessage(n: nat): string {
    "✅ All " + NatToString(n) + " downloads completed!"
  }

  const SingleCompletedMessage: string := "✅ Download completed!"

  datatype Banner = NoBanner | Success(text: string) | Failure(text: string)

  // ---------------------------------------------------------------------------
  // Form state
  // ---------------------------------------------------------------------------

  /** The component's state. `aborted` is the signal of the current abort
      controller, `None` before the first download creates one. */
  datatype FormState = FormState(
    url: string,
    settings: Settings,
    loading: bool,
    error: string,
    success: string,
    metadata: Option<Metadata>,
    metadataLoading: bool,
    metadataError: string,
    playlist: Option<Playlist>,
    isPlaylist: bool,
    aborted: Option<bool>)

  /** Nothing entered, loaded or running, and no abort controller yet. */
  function InitialState(isPremium: bool): (st: FormState)
    ensures st.url == "" && st.settings == InitialSettings(isPremium)
    ensures !st.loading && st.error == "" && st.success == ""
    ensures st.metadata.None? && !st.metadataLoading && st.metadataError == ""
    ensures st.playlist.None? && !st.isPlaylist && st.aborted.None?
  {
    FormState("", InitialSettings(isPremium), false, "", "", None, false, "", None, false, None)
  }

  // ---------------------------------------------------------------------------
  // handleUrlChange
  // ---------------------------------------------------------------------------

  /** The two lookup endpoints. */
  datatype Lookup = PlaylistVideosLookup(url: string) | MetadataLookup(url: string)

  datatype LookupStep = LookupStep(state: FormState, lookups: seq<Lookup>)

  /** The URL field changed to `newUrl`; `playlistReply`/`metadataReply` are
      what the playlist and metadata endpoints answer, whichever is asked.
      The state returned is the one after the awaited lookup settles. */
  function UrlChanged(st: FormState, newUrl: string, playlistReply: Reply<Playlist>, metadataReply: Reply<Metadata>)
    : (r: LookupStep)
    // a blank URL clears the lookups' results and asks nothing
    ensures IsBlank(newUrl) ==>
              && r.lookups == []
              && r.state == st.(url := newUrl, metadata := None, playlist := None, metadataError := "")
    // otherwise exactly one lookup, chosen by the playlist markers
    ensures !IsBlank(newUrl) ==>
              && |r.lookups| == 1
              && r.lookups[0].url == newUrl
              && (r.lookups[0].PlaylistVideosLookup? <==> ClassifyStrict(newUrl) == PlaylistUrl)
              && !r.state.metadataLoading
              && r.state.url == newUrl
              && (r.state.isPlaylist <==> r.state.playlist.Some?)
              && (r.state.isPlaylist <==> r.lookups[0].PlaylistVideosLookup? && playlistReply.Ok?)
              && (r.state.isPlaylist ==> r.state.playlist == Some(playlistReply.body))
              && (r.state.metadataError == "" <==>
                    if r.lookups[0].PlaylistVideosLookup? then playlistReply.Ok? else metadataReply.Ok?)
              && (r.lookups[0].MetadataLookup? && metadataReply.Ok? ==> r.state.metadata == Some(metadataReply.body))
              && (r.lookups[0].MetadataLookup? && !metadataReply.Ok? ==> r.state.metadata == st.metadata)
              // the failure messages
              && (r.lookups[0].PlaylistVideosLookup? && playlistReply.NotOk? ==>
                    r.state.metadataError == "Failed to fetch playlist")
              && (r.lookups[0].MetadataLookup? && metadataReply.NotOk? ==>
                    r.state.metadataError == "Failed to fetch video info")
              && ((if r.lookups[0].PlaylistVideosLookup? then playlistReply.Threw? else metadataReply.Threw?) ==>
                    r.state.metadataError == "Invalid URL")
              // a playlist lookup leaves the previous metadata in place
              && (r.lookups[0].PlaylistVideosLookup? ==> r.state.metadata == st.metadata)
    // only the URL and the lookup fields change: the download's state and
    // the settings are untouched
    ensures r.state.(url := st.url, metadataLoading := st.metadataLoading, metadataError := st.metadataError,
                     playlist := st.playlist, isPlaylist := st.isPlaylist, metadata := st.metadata) == st
  {
    TrimEmptyIffBlank(newUrl);
    if Trim(newUrl) == "" then
      LookupStep(st.(url := newUrl, metadata := None, playlist := None, metadataError := ""), [])
    else
      var pending := st.(url := newUrl, metadataLoading := true, metadataError := "", playlist := None, isPlaylist := false);
      var settled :=
        if IsPlaylistUrlStrict(newUrl) then
          match playlistReply
          case Ok(p) => pending.(playlist := Some(p), isPlaylist := true)
          case NotOk => pending.(metadataError := "Failed to fetch playlist")
          case Threw(_, _) => pending.(metadataError := "Invalid URL")
        else
          match metadataReply
          case Ok(m) => pending.(metadata := Some(m))
          case NotOk => pending.(metadataError := "Failed to fetch video info")
          case Threw(_, _) => pending.(metadataError := "Invalid URL");
      var lookup := if IsPlaylistUrlStrict(newUrl) then PlaylistVideosLookup(newUrl) else MetadataLookup(newUrl);
      LookupStep(settled.(metadataLoading := false), [lookup])
  }

  // ---------------------------------------------------------------------------
  // handleDownloadPlaylistVideos
  // ---------------------------------------------------------------------------

  /** No reply in `replies` is a rejected fetch. */
  predicate NoThrow(replies: seq<Reply<()>>) {
    forall k :: 0 <= k < |replies| ==> !replies[k].Threw?
  }

  /** The number of ok replies. */
  function OkCount(replies: seq<Reply<()>>): (n: nat)
    ensures n <= |replies|
  {
    if |replies| == 0 then 0
    else OkCount(replies[..|replies| - 1]) + (if replies[|replies| - 1].Ok? then 1 else 0)
  }

  /** Reference for what a batch saves: one file per ok reply, in list order,
      named after that item's title. */
  function SavedFiles(videos: seq<Video>, replies: seq<Reply<()>>, format: Format): (saved: seq<SavedFile>)
    requires |replies| == |videos|
    ensures |saved| == OkCount(replies)
  {
    if |videos| == 0 then []
    else
      var last := |videos| - 1;
      SavedFiles(videos[..last], replies[..last], format)
        + (if replies[last].Ok? then [SavedFile(PlaylistFilename(videos[last].title, format))] else [])
  }

  /** What one batch run produces: the proxy requests in the order issued,
      the files saved, the banner shown, `loading` afterwards, and whether
      the run ended on an abort (at the loop's check or by an `AbortError`). */
  datatype BatchRun = BatchRun(requests: seq<ProxyRequest>, saved: seq<SavedFile>, banner: Banner, loading: bool,
                               aborted: bool)

  /** What `handleDownloadPlaylistVideos` promises about one run over
      `videos`, where `replies[k]` is the proxy's answer for item k and the
      abort signal is first seen set at the check in front of item `cancelAt`. */
  predicate BatchContract(videos: seq<Video>, s: Settings, replies: seq<Reply<()>>, cancelAt: nat, run: BatchRun)
    requires |replies| == |videos|
  {
    var n := |run.requests|;
    // one request per attempted item, in list order, carrying that item's url
    && n <= |videos|
    && (forall k :: 0 <= k < n ==> run.requests[k] == ProxyRequestFor(videos[k].url, s))
    // nothing is requested once the abort signal is set
    && n <= cancelAt
    // a non-ok reply does not stop the batch: it stops at the end, at the
    // abort check, or right after a fetch that threw
    && (forall k :: 0 <= k < n - 1 ==> !replies[k].Threw?)
    && (n < |videos| ==> n == cancelAt || (n > 0 && replies[n - 1].Threw?))
    // exactly the ok replies among the attempted items are saved, in order
    && run.saved == SavedFiles(videos[..n], replies[..n], s.format)
    // the banner: success exactly when nothing was cancelled or thrown, and
    // then it announces the whole list whatever the number of saves
    && (run.banner.Success? <==> cancelAt >= |videos| && NoThrow(replies))
    && (run.banner.Success? ==> n == |videos| && run.banner.text == AllCompletedMessage(|videos|) && run.loading)
    && (cancelAt < |videos| && NoThrow(replies[..cancelAt]) ==>
          n == cancelAt && run.banner == Failure(CancelledAtCheck) && !run.loading)
    && (n > 0 && replies[n - 1].Threw? ==>
          run.banner == Failure(ErrorText(replies[n - 1].name, replies[n - 1].message)) && !run.loading)
    // the run ends on an abort exactly when the check saw the signal or the
    // fetch that ended it threw an `AbortError`
    && (run.aborted <==> || (cancelAt < |videos| && NoThrow(replies[..cancelAt]))
                         || (n > 0 && replies[n - 1].Threw? && replies[n - 1].name == AbortErrorName))
  }

  /** The requests issued for the first `n` items, in order. */
  predicate RequestsFollowList(requests: seq<ProxyRequest>, videos: seq<Video>, s: Settings, n: nat) {
    n <= |videos| && |requests| == n
    && forall k :: 0 <= k < n ==> requests[k] == ProxyRequestFor(videos[k].url, s)
  }

  /** The loop ran past the last item. */
  lemma CompletedRunContract(videos: seq<Video>, s: Settings, replies: seq<Reply<()>>, cancelAt: nat,
                             requests: seq<ProxyRequest>, saved: seq<SavedFile>)
    requires |replies| == |videos| && cancelAt >= |videos|
    requires Progress(videos, s, replies, requests, saved, |videos|)
    ensures BatchContract(videos, s, replies, cancelAt,
                          BatchRun(requests, saved, Success(AllCompletedMessage(|videos|)), true, false))
    ensures |saved| <= |requests|
  {
    assert videos[..|videos|] == videos;
    assert replies[..|videos|] == replies;
  }

  /** The abort check stopped the loop in front of item `cancelAt`. */
  lemma CancelledRunContract(videos: seq<Video>, s: Settings, replies: seq<Reply<()>>, cancelAt: nat,
                             requests: seq<ProxyRequest>, saved: seq<SavedFile>)
    requires |replies| == |videos| && cancelAt < |videos|
    requires Progress(videos, s, replies, requests, saved, cancelAt)
    ensures BatchContract(videos, s, replies, cancelAt, BatchRun(requests, saved, Failure(CancelledAtCheck), false, true))
    ensures |saved| <= |requests|
  {
    assert forall k :: 0 <= k < cancelAt ==> replies[..cancelAt][k] == replies[k];
  }

  /** The fetch for item `i` threw, ending the loop. */
  lemma ThrewRunContract(videos: seq<Video>, s: Settings, replies: seq<Reply<()>>, cancelAt: nat, i: nat,
                         requests: seq<ProxyRequest>, saved: seq<SavedFile>)
    requires |replies| == |videos| && i < |videos| && i < cancelAt
    requires Progress(videos, s, replies, requests, saved, i) && replies[i].Threw?
    ensures var run := BatchRun(requests + [ProxyRequestFor(videos[i].url, s)], saved,
                                Failure(ErrorText(replies[i].name, replies[i].message)), false,
                                replies[i].name == AbortErrorName);
            BatchContract(videos, s, replies, cancelAt, run) && |run.saved| <= |run.requests|
  {
    SavedFilesStep(videos, replies, s.format, i);
    assert forall k :: 0 <= k < i ==> replies[..i][k] == replies[k];
    if cancelAt < |videos| {
      assert replies[..cancelAt][i] == replies[i];
    }
  }

  /** What the loop has done after the first `i` items: requested each of
      them in order, saved the ok ones, and met no exception. */
  predicate Progress(videos: seq<Video>, s: Settings, replies: seq<Reply<()>>,
                     requests: seq<ProxyRequest>, saved: seq<SavedFile>, i: nat)
    requires |replies| == |videos|
  {
    && RequestsFollowList(requests, videos, s, i)
    && saved == SavedFiles(videos[..i], replies[..i], s.format)
    && NoThrow(replies[..i])
  }

  /** Item `i` answered without an exception: the loop moves on to `i + 1`. */
  lemma ProgressStep(videos: seq<Video>, s: Settings, replies: seq<Reply<()>>,
                     requests: seq<ProxyRequest>, saved: seq<SavedFile>, i: nat)
    requires |replies| == |videos| && i < |videos|
    requires Progress(videos, s, replies, requests, saved, i) && !replies[i].Threw?
    ensures Progress(videos, s, replies, requests + [ProxyRequestFor(videos[i].url, s)],
                     saved + (if replies[i].Ok? then [SavedFile(PlaylistFilename(videos[i].title, s.format))] else []),
                     i + 1)
  {
    SavedFilesStep(videos, replies, s.format, i);
  }

  /** The batch loop over `videos`. `replies[k]` is what the proxy answers for
      item k (used only if item k is requested); the abort signal is first seen
      set at the check in front of item `cancelAt` (`cancelAt >= |videos|`:
      never). A success banner stays up with `loading` set until a timer
      clears both, which is not modelled. `cancelAt == 0` is admitted though
      the browser cannot produce it: the first check runs synchronously right
      after the handler creates a fresh controller. The contract then
      describes a run stopped before any request. */
  method DownloadPlaylistVideos(videos: seq<Video>, s: Settings, replies: seq<Reply<()>>, cancelAt: nat)
    returns (run: BatchRun)
    requires |replies| == |videos|
    ensures BatchContract(videos, s, replies, cancelAt, run)
    ensures |run.saved| <= |run.requests|
  {
    var requests: seq<ProxyRequest> := [];
    var saved: seq<SavedFile> := [];
    var i := 0;
    while i < |videos|
      invariant i <= cancelAt
      invariant Progress(videos, s, replies, requests, saved, i)
      decreases |videos| - i
    {
      if i >= cancelAt {
        CancelledRunContract(videos, s, replies, cancelAt, requests, saved);
        return BatchRun(requests, saved, Failure(CancelledAtCheck), false, true);
      }
      var request := ProxyRequestFor(videos[i].url, s);
      if replies[i].Threw? {
        ThrewRunContract(videos, s, replies, cancelAt, i, requests, saved);
        return BatchRun(requests + [request], saved, Failure(ErrorText(replies[i].name, replies[i].message)), false,
                        replies[i].name == AbortErrorName);
      }
      ProgressStep(videos, s, replies, requests, saved, i);
      requests := requests + [request];
      if replies[i].Ok? {
        saved := saved + [SavedFile(PlaylistFilename(videos[i].title, s.format))];
      }
      i := i + 1;
    }
    CompletedRunContract(videos, s, replies, cancelAt, requests, saved);
    return BatchRun(requests, saved, Success(AllCompletedMessage(|videos|)), true, false);
  }

  /** Extending the attempted prefix by one item adds that item's file
      exactly when its reply is ok. */
  lemma SavedFilesStep(videos: seq<Video>, replies: seq<Reply<()>>, format: Format, i: nat)
    requires |replies| == |videos| && i < |videos|
    ensures SavedFiles(videos[..i + 1], replies[..i + 1], format)
            == SavedFiles(videos[..i], replies[..i], format)
               + (if replies[i].Ok? then [SavedFile(PlaylistFilename(videos[i].title, format))] else [])
    ensures NoThrow(replies[..i]) && !replies[i].Threw? ==> NoThrow(replies[..i + 1])
  {
    assert videos[..i + 1][..i] == videos[..i];
    assert replies[..i + 1][..i] == replies[..i];
  }

  /** The completion banner counts the list, not the saves: a batch whose
      replies include a non-ok one still announces all of them, while fewer
      files than that were saved. */
  lemma {:induction false} OkCountBelowLength(replies: seq<Reply<()>>, j: nat)
    requires j < |replies| && replies[j].NotOk?
    ensures OkCount(replies) < |replies|
    decreases |replies|
  {
    var last := |replies| - 1;
    if j < last {
      assert replies[..last][j] == replies[j];
      OkCountBelowLength(replies[..last], j);
    }
  }

  // ---------------------------------------------------------------------------
  // handleSubmit and handleCancel
  // ---------------------------------------------------------------------------

  /** The outcome of a submit: the state after the handler's awaited work,
      the proxy requests issued and the files saved. */
  datatype SubmitStep = SubmitStep(state: FormState, requests: seq<ProxyRequest>, saved: seq<SavedFile>)

  /** The single-video path of `handleSubmit`, `reply` being the proxy's
      answer. As in `AfterBatch`, the fresh controller counts as aborted
      exactly when the download ended on an abort, here an `AbortError`. */
  function SubmitSingle(st: FormState, reply: Reply<()>): (r: SubmitStep)
    // a fresh abort controller is created before anything else
    ensures r.state.aborted == Some(!IsBlank(st.url) && reply.Threw? && reply.name == AbortErrorName)
    // only the URL, the metadata, the banners, `loading` and the controller change
    ensures r.state.(url := st.url, metadata := st.metadata, error := st.error, success := st.success,
                     loading := st.loading, aborted := st.aborted) == st
    // a blank URL fails before any request
    ensures IsBlank(st.url) ==>
              && r.requests == [] && r.saved == []
              && r.state.error == "❌ Error: Please paste a URL" && !r.state.loading
              && r.state.success == "" && r.state.url == st.url && r.state.metadata == st.metadata
    ensures !IsBlank(st.url) ==>
              && r.requests == [ProxyRequestFor(st.url, st.settings)]
              && (reply.Ok? <==> r.saved == [SavedFile(SingleFilename(st.settings.format))])
              && (!reply.Ok? <==> r.saved == [])
              && (reply.Ok? ==> r.state.url == "" && r.state.metadata == None && r.state.error == ""
                                && r.state.success == SingleCompletedMessage && r.state.loading)
              && (!reply.Ok? ==> r.state.success == "" && r.state.url == st.url && r.state.metadata == st.metadata)
              && (reply.NotOk? ==> r.state.error == "❌ Error: Download failed" && !r.state.loading)
              && (reply.Threw? ==> r.state.error == ErrorText(reply.name, reply.message) && !r.state.loading)
  {
    TrimEmptyIffBlank(st.url);
    var started := st.(error := "", success := "", loading := true, aborted := Some(false));
    if Trim(st.url) == "" then
      SubmitStep(started.(error := "❌ Error: Please paste a URL", loading := false), [], [])
    else
      var request := ProxyRequestFor(st.url, st.settings);
      match reply
      case Ok(_) =>
        SubmitStep(
          started.(url := "", metadata := None, success := SingleCompletedMessage),
          [request], [SavedFile(SingleFilename(st.settings.format))])
      case NotOk =>
        SubmitStep(started.(error := "❌ Error: Download failed", loading := false), [request], [])
      case Threw(name, message) =>
        SubmitStep(started.(error := ErrorText(name, message), loading := false, aborted := Some(name == AbortErrorName)),
                   [request], [])
  }

  /** The state a finished batch leaves behind. The fresh controller is
      known to be aborted exactly when the run ended on an abort: at the
      loop's own check or through an `AbortError`. */
  function AfterBatch(st: FormState, run: BatchRun): (r: FormState)
    ensures r.aborted == Some(run.aborted)
    ensures r.url == st.url && r.settings == st.settings && r.playlist == st.playlist
    ensures run.banner.Success? ==> r.success == run.banner.text && r.error == ""
    ensures run.banner.Failure? ==> r.error == run.banner.text && r.success == ""
    ensures !run.banner.NoBanner? ==> r.loading == run.loading
    ensures r.(error := st.error, success := st.success, loading := st.loading, aborted := st.aborted) == st
  {
    var started := st.(error := "", success := "", loading := true, aborted := Some(run.aborted));
    match run.banner
    case Success(text) => started.(success := text, loading := run.loading)
    case Failure(text) => started.(error := text, loading := run.loading)
    case NoBanner => started
  }

  /** `handleSubmit`: with a loaded playlist every playlist video is
      downloaded in a batch; otherwise the URL field is downloaded once. */
  method Submit(st: FormState, reply: Reply<()>, replies: seq<Reply<()>>, cancelAt: nat)
    returns (r: SubmitStep)
    requires st.playlist.Some? ==> |replies| == |st.playlist.value.videos|
    // the whole batch runs: requests, saved files and the final state are
    // those of a run meeting the batch contract
    ensures st.isPlaylist && st.playlist.Some? ==>
              exists run :: && BatchContract(st.playlist.value.videos, st.settings, replies, cancelAt, run)
                            && r == SubmitStep(AfterBatch(st, run), run.requests, run.saved)
    ensures !(st.isPlaylist && st.playlist.Some?) ==> r == SubmitSingle(st, reply)
  {
    if st.isPlaylist && st.playlist.Some? {
      var run := DownloadPlaylistVideos(st.playlist.value.videos, st.settings, replies, cancelAt);
      r := SubmitStep(AfterBatch(st, run), run.requests, run.saved);
    } else {
      r := SubmitSingle(st, reply);
    }
  }

  /** `handleCancel`: the current controller (if any) is aborted, loading
      stops and the cancellation notice is shown; nothing else changes. */
  function Cancel(st: FormState): (r: FormState)
    ensures !r.loading && r.error == CancelledNotice
    ensures r.aborted == (if st.aborted.Some? then Some(true) else None)
    ensures r.(loading := st.loading, error := st.error, aborted := st.aborted) == st
  {
    st.(loading := false, error := CancelledNotice, aborted := if st.aborted.Some? then Some(true) else None)
  }
}

=== FILE: form_simple.dfy ===
/** DownloadForm: an explicit "Fetch Info" step that hands playlist URLs to the
    parent, then a download through the direct-link endpoint. */
module FormSimple {
  import opened Outcomes
  import opened Text
  import opened Media
  import opened UrlClassifier

  /** The component's state. `format` is "mp4" or "audio" on the wire. */
  datatype FormState = FormState(
    url: string, format: Format, quality: string, loading: bool, error: string, metadata: Option<Metadata>)

  /** Nothing entered or loaded; the selection starts at 720p mp4. */
  function InitialState(): (st: FormState)
    ensures st.url == "" && st.format == VideoFormat && st.quality == "720"
    ensures !st.loading && st.error == "" && st.metadata.None?
  {
    FormState("", VideoFormat, "720", false, "", None)
  }

  /** What `fetchMetadata` did besides changing state. */
  datatype FetchEffect =
    | NoRequest
    | PlaylistHandedOff(url: string)     // `onPlaylistDetected(url)`
    | MetadataRequested(url: string)     // POST /api/metadata {url}

  datatype FetchStep = FetchStep(state: FormState, effect: FetchEffect)

  const EnterUrlMessage: string := "Please enter a URL"
  const FetchFailedMessage: string := "❌ Failed to fetch video info"

  /** `fetchMetadata`, `reply` being the metadata endpoint's answer if asked. */
  function FetchMetadata(st: FormState, reply: Reply<Metadata>): (r: FetchStep)
    // a blank URL only sets the error
    ensures IsBlank(st.url) ==> r.effect == NoRequest && r.state == st.(error := EnterUrlMessage)
    // a playlist URL goes to the parent, untouched state, no request
    ensures !IsBlank(st.url) && ClassifyLoose(st.url) == PlaylistUrl ==>
              r.effect == PlaylistHandedOff(st.url) && r.state == st
    // otherwise one metadata request; loading ends on every path
    ensures !IsBlank(st.url) && ClassifyLoose(st.url) == SingleItem ==>
              && r.effect == MetadataRequested(st.url)
              && !r.state.loading
              && (reply.Ok? ==> r.state.metadata == Some(reply.body) && r.state.error == "")
              && (!reply.Ok? ==> r.state.metadata == None && r.state.error == FetchFailedMessage)
    // the URL and the format selection are never touched
    ensures r.state.url == st.url && r.state.format == st.format && r.state.quality == st.quality
  {
    TrimEmptyIffBlank(st.url);
    if Trim(st.url) == "" then
      FetchStep(st.(error := EnterUrlMessage), NoRequest)
    else if IsPlaylistUrlLoose(st.url) then
      FetchStep(st, PlaylistHandedOff(st.url))
    else
      var pending := st.(loading := true, error := "", metadata := None);
      var settled :=
        match reply
        case Ok(m) => pending.(metadata := Some(m))
        case _ => pending.(error := FetchFailedMessage);
      FetchStep(settled.(loading := false), MetadataRequested(st.url))
  }

  /** The direct-link endpoint's body. */
  datatype DownloadLink = DownloadLink(downloadUrl: string, title: string)

  /** The body posted to /api/download-link: the quality is sent whatever the format. */
  datatype LinkRequest = LinkRequest(url: string, format: Format, quality: string)

  /** The anchor the download link opens: its target and `download` name. */
  datatype LinkDownload = LinkDownload(href: string, filename: string)

  datatype DownloadStep = DownloadStep(state: FormState, request: LinkRequest, anchor: Option<LinkDownload>)

  /** The name a direct-link download is saved under: the title and the
      format's extension. */
  function LinkFilename(title: string, format: Format): (name: string)
    ensures |name| == |title| + 4 && name[..|title|] == title
    ensures name[|title|..] == ".mp3" <==> format == AudioFormat
    ensures name[|title|..] == ".mp4" <==> format == VideoFormat
  {
    var extension := match format case AudioFormat => "mp3" case VideoFormat => "mp4";
    var name := title + "." + extension;
    assert name[|title|..] == "." + extension;
    assert ".mp3"[3] != ".mp4"[3];
    name
  }

  /** `handleDownload`. There is no blank-URL guard here: the request is
      always sent. */
  function Download(st: FormState, reply: Reply<DownloadLink>): (r: DownloadStep)
    ensures r.request == LinkRequest(st.url, st.format, st.quality)
    ensures !r.state.loading
    ensures reply.Ok? <==> r.anchor.Some?
    ensures reply.Ok? ==>
              && r.anchor.value.href == reply.body.downloadUrl
              && r.anchor.value.filename == LinkFilename(reply.body.title, st.format)
              && r.state.error == ""
    ensures reply.NotOk? ==> r.state.error == "❌ Download failed: Failed to get download link"
    ensures reply.Threw? ==> r.state.error == "❌ Download failed: " + reply.message
    ensures r.state.metadata == st.metadata && r.state.url == st.url
    // only `loading` and the error banner change
    ensures r.state.(loading := st.loading, error := st.error) == st
  {
    var pending := st.(loading := true, error := "");
    var request := LinkRequest(st.url, st.format, st.quality);
    match reply
    case Ok(link) =>
      DownloadStep(pending.(loading := false), request,
                   Some(LinkDownload(link.downloadUrl, LinkFilename(link.title, st.format))))
    case NotOk =>
      DownloadStep(pending.(loading := false, error := "❌ Download failed: Failed to get download link"), request, None)
    case Threw(_, message) =>
      DownloadStep(pending.(loading := false, error := "❌ Download failed: " + message), request, None)
  }
}

=== FILE: media.dfy ===
/** The records the backend returns and the components pass around. */
module Media {
  import opened Outcomes

  /** The format selector. DownloadForm calls the video value "mp4", the other
      components call it "video"; every branch in the code only asks whether
      the value is "audio". */
  datatype Format = VideoFormat | AudioFormat

  /** One entry of `playlist.videos`. */
  datatype Video = Video(id: string, title: string, url: string)

  /** The playlist endpoint's body: `{playlistTitle, totalVideos, videos}`. */
  datatype Playlist = Playlist(playlistTitle: string, totalVideos: int, videos: seq<Video>)

  /** The metadata endpoint's body. Every field may be absent; numbers are
      modelled as non-negative integers. */
  datatype Metadata = Metadata(
    title: string,
    thumbnail: Option<string>,
    uploader: Option<string>,
    channel: Option<string>,
    duration: Option<nat>,
    views: Option<nat>,
    uploadDate: Option<string>,
    description: Option<string>)

  /** A file handed to the browser through an anchor with a `download` name. */
  datatype SavedFile = SavedFile(filename: string)

  /** JavaScript truthiness of an optional string: absent and "" are falsy. */
  predicate Truthy(s: Option<string>) {
    s.Some? && s.value != ""
  }

  /** `x || fallback` for an optional string. */
  function OrElse(s: Option<string>, fallback: string): string {
    if Truthy(s) then s.value else fallback
  }
}

=== FILE: metadata_preview.dfy ===
/** MetadataPreview: what the preview card shows for a fetched video, and the
    three formatters that turn duration, view count and upload date into text. */
module MetadataPreview {
  import opened Outcomes
  import opened Text
  import opened Decimal
  import opened Media

  // ---------------------------------------------------------------------------
  // Duration: "m:ss"
  // ---------------------------------------------------------------------------

  const UnknownDuration: string := "Unknown"

  /** `formatDuration`: whole minutes, a colon, and the seconds padded to two digits. */
  function FormatDuration(seconds: Option<nat>): (text: string)
    ensures text == UnknownDuration <==> seconds.None? || seconds.value == 0
  {
    match seconds
    case Some(s) =>
      if s == 0 then UnknownDuration
      else
        var text := NatToString(s / 60) + ":" + PadStart2(NatToString(s % 60));
        assert text[0] != UnknownDuration[0];
        text
    case None => UnknownDuration
  }

  /** Reads "m:ss" back as seconds; the seconds part must be two digits below 60. */
  function ParseDuration(text: string): Option<nat> {
    match SplitAt(text, ':')
    case Some((mins, secs)) =>
      if |secs| == 2 && AllDigits(secs) && DigitsValue(secs) < 60 then
        match ParseNat(mins)
        case Some(m) => Some(m * 60 + DigitsValue(secs))
        case None => None
      else None
    case None => None
  }

  /** A known duration is shown without loss: minutes and seconds add back up. */
  lemma DurationRoundTrip(s: nat)
    requires s > 0
    ensures ParseDuration(FormatDuration(Some(s))) == Some(s)
  {
    var mins := NatToString(s / 60);
    var secs := PadStart2(NatToString(s % 60));
    assert ':' !in mins;
    PadStart2Value(s % 60);
    assert FormatDuration(Some(s)) == mins + [':'] + secs;
    SplitAtJoin(mins, ':', secs);
    ParseNatToString(s / 60);
  }

  /** The placeholder cannot be mistaken for a duration. */
  lemma UnknownDurationUnreadable()
    ensures ParseDuration(UnknownDuration) == None
  {
    assert ':' !in UnknownDuration;
    assert SplitAt(UnknownDuration, ':') == None;
  }

  // ---------------------------------------------------------------------------
  // Views: "1.2M", "3.4K" or the plain count
  // ---------------------------------------------------------------------------

  const NoViews: string := "No data"

  /** `formatViews`: above a million, millions to one decimal with "M"; above
      a thousand, thousands to one decimal with "K"; otherwise the count. */
  function FormatViews(views: Option<nat>): (text: string)
    ensures text == NoViews <==> views.None? || views.value == 0
  {
    match views
    case Some(v) =>
      if v == 0 then NoViews
      else if v > 1000000 then ScaledViews(v, 100000, 'M')
      else if v > 1000 then ScaledViews(v, 100, 'K')
      else
        var text := NatToString(v);
        assert IsDigit(text[0]) && !IsDigit(NoViews[0]);
        text
    case None => NoViews
  }

  /** `(v / (10 * tenth)).toFixed(1)` followed by the unit letter. */
  function ScaledViews(v: nat, tenth: nat, suffix: char): (text: string)
    requires tenth > 0
    ensures |text| >= 4 && text[|text| - 1] == suffix && text[0] != NoViews[0]
  {
    var tenths := RoundHalfUp(v, tenth);
    var text := Fixed1(tenths) + [suffix];
    assert text[0] == NatToString(tenths / 10)[0];
    text
  }

  /** Above a million the text is the count in millions, read back to within
      half a tenth of a million. */
  lemma {:induction false} MillionsWithinHalfTenth(v: nat)
    requires v > 1000000
    ensures var text := FormatViews(Some(v));
            && text[|text| - 1] == 'M'
            && ParseFixed1(text[..|text| - 1]).Some?
            && var t := ParseFixed1(text[..|text| - 1]).value;
               2 * 100000 * t - 100000 <= 2 * v < 2 * 100000 * t + 100000
  {
    ScaledRoundTrip(v, 100000, 'M');
  }

  /** Between a thousand and a million the text is the count in thousands,
      read back to within half a tenth of a thousand. */
  lemma {:induction false} ThousandsWithinHalfTenth(v: nat)
    requires 1000 < v <= 1000000
    ensures var text := FormatViews(Some(v));
            && text[|text| - 1] == 'K'
            && ParseFixed1(text[..|text| - 1]).Some?
            && var t := ParseFixed1(text[..|text| - 1]).value;
               2 * 100 * t - 100 <= 2 * v < 2 * 100 * t + 100
  {
    ScaledRoundTrip(v, 100, 'K');
  }

  lemma {:induction false} ScaledRoundTrip(v: nat, tenth: nat, suffix: char)
    requires tenth > 0
    ensures var text := ScaledViews(v, tenth, suffix);
            && ParseFixed1(text[..|text| - 1]) == Some(RoundHalfUp(v, tenth))
  {
    var tenths := RoundHalfUp(v, tenth);
    var text := ScaledViews(v, tenth, suffix);
    assert text[..|text| - 1] == Fixed1(tenths);
    Fixed1RoundTrip(tenths);
  }

  /** Up to a thousand the count is shown as it is. */
  lemma SmallCountExact(v: nat)
    requires 0 < v <= 1000
    ensures ParseNat(FormatViews(Some(v))) == Some(v)
  {
    ParseNatToString(v);
  }

  /** The million boundary is exclusive: exactly one million views is shown
      in thousands. */
  lemma OneMillionInThousands()
    ensures FormatViews(Some(1000000)) == ScaledViews(1000000, 100, 'K')
    ensures ParseFixed1(FormatViews(Some(1000000))[..6]) == Some(10000)
  {
    var text := ScaledViews(1000000, 100, 'K');
    assert RoundHalfUp(1000000, 100) == 10000 by {
      RoundHalfUpExact(10000, 100);
    }
    ScaledRoundTrip(1000000, 100, 'K');
    assert |text| == 7 by {
      assert |NatToString(1000)| == 4 by {
        assert NatToString(1000) == NatToString(100) + [DigitChar(0)];
        assert NatToString(100) == NatToString(10) + [DigitChar(0)];
        assert NatToString(10) == NatToString(1) + [DigitChar(0)];
      }
    }
  }

  // ---------------------------------------------------------------------------
  // Upload date: "YYYYMMDD" as "YYYY-MM-DD"
  // ---------------------------------------------------------------------------

  /** `str.slice(from, to)` for non-negative bounds: both are clamped to the length. */
  function Slice(s: string, from: nat, to: nat): (r: string)
    ensures to <= |s| && from <= to ==> r == s[from..to]
    ensures |r| <= |s|
  {
    var end := if to <= |s| then to else |s|;
    var start := if from <= end then from else end;
    s[start..end]
  }

  /** The string handed to `new Date`: year, month and day slices joined by dashes. */
  function IsoDate(compact: string): (iso: string)
    ensures |compact| >= 8 ==>
              && |iso| == 10 && iso[4] == '-' && iso[7] == '-'
              && iso[..4] == compact[..4] && iso[5..7] == compact[4..6] && iso[8..] == compact[6..8]
  {
    Slice(compact, 0, 4) + "-" + Slice(compact, 4, 6) + "-" + Slice(compact, 6, 8)
  }

  /** Reads "YYYY-MM-DD" back into "YYYYMMDD". */
  function CompactDate(iso: string): Option<string> {
    match SplitAt(iso, '-')
    case Some((year, rest)) =>
      (match SplitAt(rest, '-')
       case Some((month, day)) =>
         if |year| == 4 && |month| == 2 && |day| == 2 then Some(year + month + day) else None
       case None => None)
    case None => None
  }

  /** An eight-character date without dashes is passed on whole: nothing is
      lost or reordered on the way to the date parser. */
  lemma IsoDateRoundTrip(compact: string)
    requires |compact| == 8 && '-' !in compact
    ensures CompactDate(IsoDate(compact)) == Some(compact)
  {
    var y, m, d := compact[..4], compact[4..6], compact[6..];
    assert IsoDate(compact) == y + ['-'] + (m + ['-'] + d);
    assert '-' !in y && '-' !in m;
    SplitAtJoin(y, '-', m + ['-'] + d);
    SplitAtJoin(m, '-', d);
    assert y + m + d == compact;
  }

  /** What the "Uploaded" line shows: a placeholder, or the browser's local
      rendering of the parsed date. */
  datatype DateShown = UnknownDate | LocaleDate(iso: string)

  /** `formatDate`. */
  function FormatDate(uploadDate: Option<string>): (shown: DateShown)
    ensures shown == UnknownDate <==> !Truthy(uploadDate)
    ensures shown.LocaleDate? ==> shown.iso == IsoDate(uploadDate.value)
  {
    if Truthy(uploadDate) then LocaleDate(IsoDate(uploadDate.value)) else UnknownDate
  }

  // ---------------------------------------------------------------------------
  // The card and what the component renders
  // ---------------------------------------------------------------------------

  const UnknownUploader: string := "Unknown"

  /** The preview card's fields, in display order. */
  datatype Card = Card(
    thumbnail: Option<string>,
    title: string,
    duration: string,
    uploader: string,
    views: string,
    uploaded: DateShown,
    description: Option<string>)

  datatype View =
    | Nothing
    | LoadingView
    | ErrorView(message: string)
    | CardView(card: Card)

  /** `MetadataPreview({metadata, loading, error})`: loading wins over an
      error, an error wins over the card, and with none of the three nothing
      is rendered. */
  function Render(metadata: Option<Metadata>, loading: bool, error: string): (v: View)
    ensures v == Nothing <==> !loading && error == "" && metadata.None?
    ensures v == LoadingView <==> loading
    ensures v.ErrorView? <==> !loading && error != ""
    ensures v.ErrorView? ==> v.message == "❌ " + error
    ensures v.CardView? <==> !loading && error == "" && metadata.Some?
    ensures v.CardView? ==>
              var m := metadata.value;
              && (v.card.thumbnail.Some? <==> Truthy(m.thumbnail))
              && (v.card.thumbnail.Some? ==> v.card.thumbnail == m.thumbnail)
              && v.card.title == m.title
              && v.card.duration == FormatDuration(m.duration)
              && v.card.uploader == OrElse(m.uploader, UnknownUploader)
              && v.card.views == FormatViews(m.views)
              && v.card.uploaded == FormatDate(m.uploadDate)
              && v.card.description == m.description
  {
    if metadata.None? && !loading && error == "" then Nothing
    else if loading then LoadingView
    else if error != "" then ErrorView("❌ " + error)
    else if metadata.None? then Nothing
    else
      var m := metadata.value;
      CardView(Card(
        if Truthy(m.thumbnail) then m.thumbnail else None,
        m.title,
        FormatDuration(m.duration),
        OrElse(m.uploader, UnknownUploader),
        FormatViews(m.views),
        FormatDate(m.uploadDate),
        m.description))
  }
}

=== FILE: outcomes.dfy ===
/** Optional values and the replies a `fetch` call can produce. */
module Outcomes {

  /** A JavaScript value that may be `null`/`undefined`. */
  datatype Option<+T> = None | Some(value: T) {
    function GetOr(default: T): T {
      match this
      case Some(v) => v
      case None => default
    }
  }

  /** What awaiting `fetch(...)` (and reading its body) yields: a response whose
      `ok` flag is set together with the decoded body, a response whose `ok`
      flag is clear, or a rejected promise carrying an error's `name` and
      `message` (a network failure, an `AbortError`, a body that fails to parse). */
  datatype Reply<+T> = Ok(body: T) | NotOk | Threw(name: string, message: string)

  /** The `name` of the error a fetch rejects with when its signal is aborted. */
  const AbortErrorName: string := "AbortError"
}

=== FILE: playlist_selection.dfy ===
/** PlaylistViewer: the checkbox selection over a playlist's videos and the
    hand-off of the selected videos to the batch download. */
module PlaylistSelection {
  import opened Media

  /** The selected video ids, in the order they were ticked. */
  type Selection = seq<string>

  predicate NoDuplicates<T(==)>(s: seq<T>) {
    forall i, j :: 0 <= i < j < |s| ==> s[i] != s[j]
  }

  /** `a` is `b` with some elements left out, the rest in the same order. */
  predicate IsSubsequence<T(==)>(a: seq<T>, b: seq<T>)
    decreases |b|
  {
    |a| == 0 || (|b| > 0 && ((a[0] == b[0] && IsSubsequence(a[1..], b[1..])) || IsSubsequence(a, b[1..])))
  }

  /** `sel.filter(v => v !== id)`: every copy of every other id is kept, in
      order, and no copy of `id` is. */
  function Without(sel: Selection, id: string): (r: Selection)
    ensures forall x :: x in r <==> x in sel && x != id
    ensures multiset(r) == multiset(sel)[id := 0]
    ensures IsSubsequence(r, sel)
    ensures id !in sel ==> r == sel
  {
    if |sel| == 0 then []
    else
      assert sel == [sel[0]] + sel[1..];
      if sel[0] == id then Without(sel[1..], id)
      else [sel[0]] + Without(sel[1..], id)
  }

  /** `toggleVideo(id)`: a selected id is removed, an unselected one is
      appended at the end. */
  function ToggleVideo(sel: Selection, id: string): (r: Selection)
    ensures id in r <==> id !in sel
    ensures forall x :: x != id ==> (x in r <==> x in sel)
    ensures id !in sel ==> r == sel + [id]
    ensures id in sel ==> IsSubsequence(r, sel) && |r| < |sel|
    ensures id in sel ==> multiset(r) == multiset(sel)[id := 0]
  {
    if id in sel then
      WithoutShrinks(sel, id);
      Without(sel, id)
    else sel + [id]
  }

  /** Removing an id that is present makes the list shorter. */
  lemma {:induction false} WithoutShrinks(sel: Selection, id: string)
    requires id in sel
    ensures |Without(sel, id)| < |sel|
  {
    SubsequenceNotLonger(Without(sel[1..], id), sel[1..]);
    if sel[0] != id {
      WithoutShrinks(sel[1..], id);
    }
  }

  lemma {:induction false} SubsequenceNotLonger<T>(a: seq<T>, b: seq<T>)
    requires IsSubsequence(a, b)
    ensures |a| <= |b|
    decreases |b|
  {
    if |a| > 0 {
      if a[0] == b[0] && IsSubsequence(a[1..], b[1..]) {
        SubsequenceNotLonger(a[1..], b[1..]);
      } else {
        SubsequenceNotLonger(a, b[1..]);
      }
    }
  }

  /** Ticking an unticked box and unticking it again restores the selection exactly. */
  lemma {:induction false} ToggleAbsentTwice(sel: Selection, id: string)
    requires id !in sel
    ensures ToggleVideo(ToggleVideo(sel, id), id) == sel
  {
    WithoutAppended(sel, id);
  }

  lemma {:induction false} WithoutAppended(sel: Selection, id: string)
    requires id !in sel
    ensures Without(sel + [id], id) == sel
  {
    if |sel| > 0 {
      assert (sel + [id])[1..] == sel[1..] + [id];
      WithoutAppended(sel[1..], id);
    } else {
      assert (sel + [id])[1..] == [];
    }
  }

  /** Unticking a ticked box and ticking it again moves the id to the end:
      the same set of ids, possibly in another order. */
  lemma ToggleTwiceKeepsMembers(sel: Selection, id: string, x: string)
    ensures x in ToggleVideo(ToggleVideo(sel, id), id) <==> x in sel
  {
  }

  /** Toggling never introduces a duplicate id. */
  lemma {:induction false} ToggleKeepsNoDuplicates(sel: Selection, id: string)
    requires NoDuplicates(sel)
    ensures NoDuplicates(ToggleVideo(sel, id))
  {
    if id in sel {
      WithoutKeepsNoDuplicates(sel, id);
    }
  }

  lemma {:induction false} WithoutKeepsNoDuplicates(sel: Selection, id: string)
    requires NoDuplicates(sel)
    ensures NoDuplicates(Without(sel, id))
  {
    if |sel| > 0 {
      assert NoDuplicates(sel[1..]) by {
        forall i, j | 0 <= i < j < |sel[1..]| ensures sel[1..][i] != sel[1..][j] {
          assert sel[1..][i] == sel[i + 1] && sel[1..][j] == sel[j + 1];
        }
      }
      WithoutKeepsNoDuplicates(sel[1..], id);
      if sel[0] != id {
        var rest := Without(sel[1..], id);
        assert sel[0] !in sel[1..] by {
          forall j | 0 <= j < |sel[1..]| ensures sel[1..][j] != sel[0] {
            assert sel[1..][j] == sel[j + 1];
          }
        }
        assert sel[0] !in rest;
        var r := [sel[0]] + rest;
        forall i, j | 0 <= i < j < |r| ensures r[i] != r[j] {
          if i == 0 {
            assert r[j] == rest[j - 1];
          } else {
            assert r[i] == rest[i - 1] && r[j] == rest[j - 1];
          }
        }
      }
    }
  }

  /** The ids of the playlist's videos, in playlist order. */
  function Ids(videos: seq<Video>): (ids: Selection)
    ensures |ids| == |videos| && forall k :: 0 <= k < |videos| ==> ids[k] == videos[k].id
  {
    seq(|videos|, k requires 0 <= k < |videos| => videos[k].id)
  }

  /** `toggleAll`: clears the selection when its length equals the number of
      videos, otherwise selects every video in playlist order. */
  function ToggleAll(sel: Selection, videos: seq<Video>): (r: Selection)
    ensures |sel| == |videos| ==> r == []
    ensures |sel| != |videos| ==> |r| == |videos| && forall k :: 0 <= k < |videos| ==> r[k] == videos[k].id
  {
    if |sel| == |videos| then [] else Ids(videos)
  }

  /** `downloadSelected`: the videos whose id is selected, in playlist order;
      a video listed twice is downloaded twice. */
  function DownloadSelected(videos: seq<Video>, sel: Selection): (r: seq<Video>)
    ensures IsSubsequence(r, videos)
    ensures forall v :: v in r <==> v in videos && v.id in sel
    ensures forall v :: multiset(r)[v] == if v.id in sel then multiset(videos)[v] else 0
  {
    if |videos| == 0 then []
    else
      assert videos == [videos[0]] + videos[1..];
      var rest := DownloadSelected(videos[1..], sel);
      if videos[0].id in sel then
        assert ([videos[0]] + rest)[1..] == rest;
        [videos[0]] + rest
      else rest
  }

  /** Only the set of selected ids matters, not the order in which they were
      ticked nor repeated ids. */
  lemma {:induction false} DownloadSelectedIgnoresOrder(videos: seq<Video>, sel1: Selection, sel2: Selection)
    requires forall x :: x in sel1 <==> x in sel2
    ensures DownloadSelected(videos, sel1) == DownloadSelected(videos, sel2)
  {
    if |videos| > 0 {
      DownloadSelectedIgnoresOrder(videos[1..], sel1, sel2);
    }
  }

  /** The controls above the list. */
  datatype Controls = Controls(selectAllLabel: string, selectAllEnabled: bool, downloadEnabled: bool, checkboxesEnabled: bool)

  const DeselectAllLabel: string := "✓ Deselect All"
  const SelectAllLabel: string := "☐ Select All"

  /** What the buttons show and whether they can be pressed. */
  function ControlsFor(sel: Selection, videos: seq<Video>, loading: bool): (c: Controls)
    ensures c.downloadEnabled <==> |sel| > 0 && !loading
    ensures c.selectAllEnabled == c.checkboxesEnabled == !loading
    ensures c.selectAllLabel in {SelectAllLabel, DeselectAllLabel}
    ensures c.selectAllLabel == DeselectAllLabel <==> |sel| == |videos|
    ensures c.selectAllLabel == DeselectAllLabel ==> ToggleAll(sel, videos) == []
    ensures c.selectAllLabel == SelectAllLabel ==> ToggleAll(sel, videos) == Ids(videos)
  {
    assert DeselectAllLabel[0] != SelectAllLabel[0];
    Controls(if |sel| == |videos| then DeselectAllLabel else SelectAllLabel, !loading, !(|sel| == 0 || loading), !loading)
  }
}

=== FILE: premium.dfy ===
/** PremiumSection: currency detection, the plan price table, prices in the
    detected currency, the remaining-days countdown and plan activation. */
module Premium {
  import opened Outcomes
  import opened Text
  import opened Decimal

  // ---------------------------------------------------------------------------
  // Currency
  // ---------------------------------------------------------------------------

  const CountryToCurrency: map<string, string> := map[
    "IN" := "INR", "US" := "USD", "GB" := "GBP", "CA" := "CAD", "AU" := "AUD",
    "DE" := "EUR", "FR" := "EUR", "IT" := "EUR", "ES" := "EUR", "NL" := "EUR",
    "JP" := "JPY", "AE" := "AED", "SG" := "SGD", "HK" := "HKD"]

  /** One row of the rate table: the symbol, how many units one rupee buys,
      and the 30-day price in rupees. */
  datatype CurrencyRate = CurrencyRate(symbol: string, rate: real, price30: nat)

  const CurrencyRates: map<string, CurrencyRate> := map[
    "USD" := CurrencyRate("$", 0.0024, 199),
    "INR" := CurrencyRate("₹", 1.0, 199),
    "EUR" := CurrencyRate("€", 0.0022, 199),
    "GBP" := CurrencyRate("£", 0.0019, 199),
    "AUD" := CurrencyRate("A$", 0.0037, 199),
    "CAD" := CurrencyRate("C$", 0.0033, 199),
    "JPY" := CurrencyRate("¥", 0.36, 199),
    "AED" := CurrencyRate("د.إ", 0.0088, 199),
    "SGD" := CurrencyRate("S$", 0.0032, 199),
    "HKD" := CurrencyRate("HK$", 0.019, 199)]

  const DefaultCurrency: string := "INR"

  /** Every currency a country maps to has a rate. */
  lemma CountryCurrenciesHaveRates(country: string)
    requires country in CountryToCurrency
    ensures CountryToCurrency[country] in CurrencyRates
  {
  }

  /** `detectCurrency`: the country code the geolocation lookup returned, if
      it returned one, mapped to its currency, rupees otherwise. */
  function DetectCurrency(countryCode: Option<string>): (currency: string)
    ensures countryCode.Some? && countryCode.value in CountryToCurrency ==>
              currency == CountryToCurrency[countryCode.value]
    ensures countryCode.None? || countryCode.value !in CountryToCurrency ==> currency == DefaultCurrency
    ensures currency in CurrencyRates
  {
    match countryCode
    case Some(code) =>
      if code in CountryToCurrency then
        CountryCurrenciesHaveRates(code);
        CountryToCurrency[code]
      else DefaultCurrency
    case None => DefaultCurrency
  }

  /** The symbol shown before prices: rupees when the currency has no rate. */
  function CurrencySymbol(currency: string): (symbol: string)
    ensures currency in CurrencyRates ==> symbol == CurrencyRates[currency].symbol
    ensures currency !in CurrencyRates ==> symbol == CurrencyRates[DefaultCurrency].symbol
  {
    if currency in CurrencyRates then CurrencyRates[currency].symbol else "₹"
  }

  // ---------------------------------------------------------------------------
  // Prices
  // ---------------------------------------------------------------------------

  const PricingPlans: map<int, nat> := map[30 := 199, 90 := 499, 180 := 899, 365 := 1499]
  const FallbackPrice: nat := 199

  /** `pricingPlans[days] || 199`: the plan's price in rupees. */
  function BasePrice(days: int): (price: nat)
    ensures days in PricingPlans ==> price == PricingPlans[days]
    ensures days !in PricingPlans ==> price == FallbackPrice
  {
    if days in PricingPlans then PricingPlans[days] else FallbackPrice
  }

  /** `getPricingOptions`: the durations offered and their labels. */
  datatype PricingOption = PricingOption(days: int, caption: string)

  const PricingOptions: seq<PricingOption> := [
    PricingOption(30, "30 Days"), PricingOption(90, "90 Days"),
    PricingOption(180, "180 Days"), PricingOption(365, "1 Year")]

  /** Every offered duration has its own plan price: the fallback never
      prices an offered plan, and longer plans cost more. */
  lemma OfferedDurationsArePriced(k: nat)
    requires k < |PricingOptions|
    ensures PricingOptions[k].days in PricingPlans
    ensures k > 0 ==> BasePrice(PricingOptions[k - 1].days) < BasePrice(PricingOptions[k].days)
  {
  }

  /** `getPrice(days)` in hundredths of the currency: the rupee price
      unconverted when the currency has no rate, otherwise the converted
      price rounded to cents. */
  function PriceCents(days: int, currency: string): (cents: nat)
    ensures currency !in CurrencyRates ==> cents == BasePrice(days) * 100
    ensures currency in CurrencyRates ==>
              var exact := (BasePrice(days) as real) * CurrencyRates[currency].rate * 100.0;
              (cents as real) - 0.5 <= exact < (cents as real) + 0.5
  {
    if currency !in CurrencyRates then BasePrice(days) * 100
    else
      var exact := (BasePrice(days) as real) * CurrencyRates[currency].rate * 100.0;
      var n := RoundReal(exact);
      assert n >= 0 by {
        assert CurrencyRates[currency].rate >= 0.0;
      }
      n
  }

  /** Prices in rupees are the plan prices exactly. */
  lemma RupeePricesExact(days: int)
    ensures PriceCents(days, DefaultCurrency) == BasePrice(days) * 100
  {
    var exact := (BasePrice(days) as real) * 1.0 * 100.0;
    assert exact == (BasePrice(days) * 100) as real;
  }

  /** `getPrice(days)`: the price with two decimals. */
  function GetPrice(days: int, currency: string): (text: string)
    ensures |text| >= 4 && text[|text| - 3] == '.' && AllDigits(text[|text| - 2..])
    ensures AllDigits(text[..|text| - 3])
  {
    Fixed2(PriceCents(days, currency))
  }

  /** The price text reads back as the cents it was made from; with no rate
      that is the rupee price. */
  lemma GetPriceReadsBack(days: int, currency: string)
    ensures ParseFixed2(GetPrice(days, currency)) == Some(PriceCents(days, currency))
    ensures currency !in CurrencyRates ==> ParseFixed2(GetPrice(days, currency)) == Some(BasePrice(days) * 100)
  {
    Fixed2RoundTrip(PriceCents(days, currency));
  }

  // ---------------------------------------------------------------------------
  // The premium record
  // ---------------------------------------------------------------------------

  const DayMs: nat := 1000 * 60 * 60 * 24

  /** The stored record. Instants are milliseconds since the epoch; the ISO
      strings stored in the browser carry the same instants. */
  datatype PremiumRecord = PremiumRecord(
    startMs: int,
    expiryMs: int,
    paymentMethod: string,
    daysCount: int,
    price: string,
    currency: string,
    status: string)

  /** `getRemainingDays`: no answer without a record; otherwise the whole
      days left until expiry, a started day counting as one, and never
      below zero. */
  function RemainingDays(premium: Option<PremiumRecord>, nowMs: int): (days: Option<nat>)
    ensures days.None? <==> premium.None?
    ensures days.Some? ==> (days.value > 0 <==> premium.value.expiryMs > nowMs)
    ensures days.Some? && days.value > 0 ==>
              DayMs * days.value - DayMs < premium.value.expiryMs - nowMs <= DayMs * days.value
  {
    match premium
    case None => None
    case Some(p) =>
      var diff := CeilDiv(p.expiryMs - nowMs, DayMs);
      Some(if diff > 0 then diff else 0)
  }

  const ActiveStatus: string := "active"

  /** The record `handlePayment` stores for a purchase made at `nowMs`. */
  function Activation(nowMs: int, daysCount: int, paymentMethod: string, currency: string): (p: PremiumRecord)
    ensures p.startMs == nowMs && p.expiryMs == nowMs + daysCount * DayMs
    ensures p.daysCount == daysCount && p.status == ActiveStatus
    ensures p.paymentMethod == paymentMethod && p.currency == currency
    ensures p.price == GetPrice(daysCount, currency)
  {
    PremiumRecord(nowMs, nowMs + daysCount * DayMs, paymentMethod, daysCount,
                  GetPrice(daysCount, currency), currency, ActiveStatus)
  }

  /** At any time within the first day after activation the countdown shows
      the purchased days (a started day counts whole). */
  lemma ActivationCountdown(nowMs: int, daysCount: int, paymentMethod: string, currency: string, elapsed: nat)
    requires daysCount > 0 && elapsed < DayMs
    ensures RemainingDays(Some(Activation(nowMs, daysCount, paymentMethod, currency)), nowMs + elapsed) == Some(daysCount)
  {
    var p := Activation(nowMs, daysCount, paymentMethod, currency);
    var a := p.expiryMs - (nowMs + elapsed);
    assert a == DayMs * daysCount - elapsed;
    DivUnique(-a, DayMs, -daysCount, elapsed);
  }

  // ---------------------------------------------------------------------------
  // Purchase
  // ---------------------------------------------------------------------------

  datatype PremiumState = PremiumState(
    premium: Option<PremiumRecord>,
    showPayment: bool,
    paymentMethod: string,
    daysCount: int,
    isProcessing: bool,
    message: string,
    currency: string)

  /** Before anything loads: no record, card payment, a 30-day plan, rupees. */
  function InitialState(): (st: PremiumState)
    ensures st.premium.None? && !st.showPayment && !st.isProcessing && st.message == ""
    ensures st.paymentMethod == "card" && st.daysCount == 30 && st.daysCount in PricingPlans
    ensures st.currency == DefaultCurrency && st.currency in CurrencyRates
  {
    PremiumState(None, false, "card", 30, false, "", DefaultCurrency)
  }

  const ActivatedMessage: string := "✅ Premium activated successfully!"
  const PaymentFailedMessage: string := "❌ Payment failed. Try again."

  /** `handlePayment`'s outcome: the new state, the record written to
      storage if any, and whether the parent's `onUpgrade` ran. */
  datatype PaymentStep = PaymentStep(state: PremiumState, stored: Option<PremiumRecord>, upgraded: bool)

  /** `handlePayment` at time `nowMs`; `storageWorks` says whether writing
      the record succeeds. */
  function HandlePayment(st: PremiumState, nowMs: int, storageWorks: bool): (r: PaymentStep)
    ensures !r.state.isProcessing
    ensures storageWorks <==> r.upgraded
    ensures storageWorks ==>
              && r.stored == Some(Activation(nowMs, st.daysCount, st.paymentMethod, st.currency))
              && r.state.premium == r.stored
              && r.state.message == ActivatedMessage && !r.state.showPayment
    ensures !storageWorks ==>
              && r.stored.None? && r.state.premium == st.premium
              && r.state.message == PaymentFailedMessage
    ensures r.state.daysCount == st.daysCount && r.state.currency == st.currency
    // nothing else in the state changes
    ensures storageWorks ==>
              r.state == st.(premium := r.stored, message := ActivatedMessage, showPayment := false, isProcessing := false)
    ensures !storageWorks ==> r.state == st.(message := PaymentFailedMessage, isProcessing := false)
  {
    var pending := st.(isProcessing := true, message := "");
    var record := Activation(nowMs, st.daysCount, st.paymentMethod, st.currency);
    if storageWorks then
      PaymentStep(pending.(premium := Some(record), message := ActivatedMessage, showPayment := false, isProcessing := false),
                  Some(record), true)
    else
      PaymentStep(pending.(message := PaymentFailedMessage, isProcessing := false), None, false)
  }
}

=== FILE: progress_modal.dfy ===
/** DownloadProgressModal: the overlay with a progress ring, the byte counts
    and a status line. */
module ProgressModal {
  import opened Outcomes
  import opened ByteFormat

  /** The ring's dash length: the circle of radius 70 rounded to 440. */
  const DashLength: real := 440.0

  /** `440 - (440 * progress) / 100`: how much of the ring is left undrawn. */
  function StrokeOffset(progress: real): (offset: real)
    ensures progress == 0.0 ==> offset == DashLength
    ensures progress == 100.0 ==> offset == 0.0
    ensures 0.0 <= progress <= 100.0 <==> 0.0 <= offset <= DashLength
  {
    DashLength - (DashLength * progress) / 100.0
  }

  /** The percentage a given offset stands for. */
  function ProgressForOffset(offset: real): real {
    (DashLength - offset) * 100.0 / DashLength
  }

  /** The ring shows the percentage without loss: the offset determines it. */
  lemma StrokeOffsetRoundTrip(progress: real)
    ensures ProgressForOffset(StrokeOffset(progress)) == progress
  {
  }

  /** More progress draws more of the ring. */
  lemma StrokeOffsetDecreasing(p: real, q: real)
    requires p < q
    ensures StrokeOffset(q) < StrokeOffset(p)
  {
  }

  const CompleteStatus: string := "⏳ Download complete!"
  const RunningStatus: string := "⏳ Downloading..."

  /** The status line under the bar. */
  function Status(progress: real): (status: string)
    ensures status == CompleteStatus <==> progress == 100.0
    ensures status == RunningStatus <==> progress != 100.0
  {
    assert CompleteStatus[10] != RunningStatus[10];
    if progress == 100.0 then CompleteStatus else RunningStatus
  }

  /** What the open modal shows. The two size texts are the formatted props;
      the percentage is written in the ring and sets the bar's width. */
  datatype ModalView = ModalView(
    downloadedText: string,
    totalText: string,
    percent: real,
    strokeOffset: real,
    status: string)

  /** `DownloadProgressModal({isOpen, progress, downloadedSize, totalSize})`. */
  function Modal(isOpen: bool, progress: real, downloadedSize: nat, totalSize: nat): (view: Option<ModalView>)
    ensures view.None? <==> !isOpen
    ensures view.Some? ==>
              && view.value.downloadedText == FormatBytes(downloadedSize)
              && view.value.totalText == FormatBytes(totalSize)
              && view.value.percent == progress
              && ProgressForOffset(view.value.strokeOffset) == progress
              && view.value.status == Status(progress)
              && (view.value.status == CompleteStatus <==> progress == 100.0)
  {
    if !isOpen then None
    else Some(ModalView(FormatBytes(downloadedSize), FormatBytes(totalSize), progress,
                        StrokeOffset(progress), Status(progress)))
  }
}

=== FILE: progress_panel.dfy ===
/** DownloadProgress: the inline panel under the form. While loading it shows
    the percentage, the byte counts, a bar and a cancel button; afterwards
    only the error and success messages. */
module ProgressPanel {
  import opened Outcomes
  import opened ByteFormat

  /** The part shown while loading. */
  datatype ProgressSection = ProgressSection(percent: real, downloadedText: string, totalText: string)

  datatype PanelView = PanelView(
    progress: Option<ProgressSection>,
    error: Option<string>,
    success: Option<string>)

  /** `DownloadProgress({isLoading, progress, error, success, downloadedSize, totalSize})`. */
  function Panel(isLoading: bool, progress: real, error: string, success: string,
                 downloadedSize: nat, totalSize: nat): (view: PanelView)
    ensures view.progress.Some? <==> isLoading
    ensures view.progress.Some? ==>
              view.progress.value == ProgressSection(progress, FormatBytes(downloadedSize), FormatBytes(totalSize))
    ensures view.error.Some? <==> error != "" && !isLoading
    ensures view.success.Some? <==> success != "" && !isLoading
    ensures view.error.Some? ==> view.error.value == error
    ensures view.success.Some? ==> view.success.value == success
  {
    PanelView(
      if isLoading then Some(ProgressSection(progress, FormatBytes(downloadedSize), FormatBytes(totalSize))) else None,
      if error != "" && !isLoading then Some(error) else None,
      if success != "" && !isLoading then Some(success) else None)
  }

  /** The progress section and the messages are never on screen together. */
  lemma ProgressExcludesMessages(isLoading: bool, progress: real, error: string, success: string,
                                 downloadedSize: nat, totalSize: nat)
    ensures var view := Panel(isLoading, progress, error, success, downloadedSize, totalSize);
            view.progress.Some? ==> view.error.None? && view.success.None?
  {
  }
}

=== FILE: text.dfy ===
/** String helpers shared by the components: JavaScript's `trim`, `includes`,
    `padStart` and the decimal rendering of integers, each with the law that
    makes it usable in the contracts of the handlers. */
module Text {
  import opened Outcomes

  // ---------------------------------------------------------------------------
  // Whitespace and trim
  // ---------------------------------------------------------------------------

  /** The characters `String.prototype.trim` removes: ECMAScript's WhiteSpace
      and LineTerminator code points. */
  predicate IsWhitespace(c: char) {
    || c == '\t' || c == '\n' || c == '\r' || c == ' '
    || c as int == 0x0B || c as int == 0x0C || c as int == 0xA0
    || c as int == 0x1680 || (0x2000 <= c as int <= 0x200A)
    || c as int == 0x2028 || c as int == 0x2029 || c as int == 0x202F
    || c as int == 0x205F || c as int == 0x3000 || c as int == 0xFEFF
  }

  /** Empty or whitespace only. */
  predicate IsBlank(s: string) {
    forall i :: 0 <= i < |s| ==> IsWhitespace(s[i])
  }

  /** Drops leading whitespace: the result is a suffix of `s`, everything dropped
      was whitespace, and the result does not start with whitespace. */
  function TrimStart(s: string): (r: string)
    ensures |r| <= |s| && r == s[|s| - |r|..]
    ensures forall i :: 0 <= i < |s| - |r| ==> IsWhitespace(s[i])
    ensures |r| > 0 ==> !IsWhitespace(r[0])
  {
    if |s| > 0 && IsWhitespace(s[0]) then TrimStart(s[1..]) else s
  }

  /** Drops trailing whitespace: the result is a prefix of `s`, everything
      dropped was whitespace, and the result does not end with whitespace. */
  function TrimEnd(s: string): (r: string)
    ensures |r| <= |s| && r == s[..|r|]
    ensures forall i :: |r| <= i < |s| ==> IsWhitespace(s[i])
    ensures |r| > 0 ==> !IsWhitespace(r[|r| - 1])
  {
    if |s| > 0 && IsWhitespace(s[|s| - 1]) then TrimEnd(s[..|s| - 1]) else s
  }

  /** `s.trim()`: a slice of `s` cut only through whitespace at both ends,
      neither of whose ends is whitespace. */
  function Trim(s: string): (r: string)
    ensures |r| > 0 ==> !IsWhitespace(r[0]) && !IsWhitespace(r[|r| - 1])
    ensures var k := |s| - |TrimStart(s)|;
            && k + |r| <= |s| && r == s[k..k + |r|]
            && (forall i :: 0 <= i < k ==> IsWhitespace(s[i]))
            && (forall i :: k + |r| <= i < |s| ==> IsWhitespace(s[i]))
  {
    var t := TrimStart(s);
    var r := TrimEnd(t);
    SliceOfSuffix(s, t, r);
    r
  }

  /** A prefix `r` of a suffix `t` of `s` is a slice of `s`; what `r` leaves
      of `t` is what it leaves of `s` at the end. */
  lemma SliceOfSuffix(s: string, t: string, r: string)
    requires |t| <= |s| && t == s[|s| - |t|..]
    requires |r| <= |t| && r == t[..|r|]
    requires forall i :: |r| <= i < |t| ==> IsWhitespace(t[i])
    ensures var k := |s| - |t|;
            && r == s[k..k + |r|]
            && (forall i :: k + |r| <= i < |s| ==> IsWhitespace(s[i]))
  {
    var k := |s| - |t|;
    forall i | k + |r| <= i < |s|
      ensures IsWhitespace(s[i])
    {
      assert s[i] == t[i - k];
    }
  }

  /** `!s.trim()` holds exactly for the blank strings: the guard every
      handler puts in front of its request. */
  lemma TrimEmptyIffBlank(s: string)
    ensures Trim(s) == "" <==> IsBlank(s)
  {
  }

  // ---------------------------------------------------------------------------
  // Substring search (`String.prototype.includes`)
  // ---------------------------------------------------------------------------

  predicate StartsWith(s: string, prefix: string) {
    |prefix| <= |s| && s[..|prefix|] == prefix
  }

  /** `s.includes(sub)`, scanning left to right: the empty string occurs in
      every string, and nothing longer than `s` occurs in it. */
  predicate Contains(s: string, sub: string)
    ensures |sub| == 0 ==> Contains(s, sub)
    ensures Contains(s, sub) ==> |sub| <= |s|
    decreases |s|
  {
    StartsWith(s, sub) || (|s| > 0 && Contains(s[1..], sub))
  }

  /** `sub` occurs in `s` starting at index `i`. */
  predicate OccursAt(s: string, sub: string, i: int) {
    0 <= i && i + |sub| <= |s| && s[i..i + |sub|] == sub
  }

  /** The scan finds `sub` exactly when it occurs at some position. */
  lemma {:induction false} ContainsIffOccurs(s: string, sub: string)
    ensures Contains(s, sub) <==> exists i :: OccursAt(s, sub, i)
    decreases |s|
  {
    if StartsWith(s, sub) {
      assert OccursAt(s, sub, 0);
    }
    if |s| > 0 {
      ContainsIffOccurs(s[1..], sub);
      if Contains(s[1..], sub) {
        var i :| OccursAt(s[1..], sub, i);
        assert s[1..][i..i + |sub|] == s[i + 1..i + 1 + |sub|];
        assert OccursAt(s, sub, i + 1);
      }
      if exists i :: OccursAt(s, sub, i) {
        var i :| OccursAt(s, sub, i);
        if i > 0 {
          assert s[1..][i - 1..i - 1 + |sub|] == s[i..i + |sub|];
          assert OccursAt(s[1..], sub, i - 1);
        } else {
          assert StartsWith(s, sub);
        }
      }
    } else {
      if exists i :: OccursAt(s, sub, i) {
        var i :| OccursAt(s, sub, i);
        assert |sub| == 0;
        assert StartsWith(s, sub);
      }
    }
  }

  /** An occurrence exhibits containment. */
  lemma OccursContains(s: string, sub: string, i: int)
    requires OccursAt(s, sub, i)
    ensures Contains(s, sub)
  {
    ContainsIffOccurs(s, sub);
  }

  /** Containment is transitive: whatever occurs in a substring of `s` occurs in `s`. */
  lemma ContainsTransitive(s: string, mid: string, sub: string)
    requires Contains(s, mid) && Contains(mid, sub)
    ensures Contains(s, sub)
  {
    ContainsIffOccurs(s, mid);
    ContainsIffOccurs(mid, sub);
    var i :| OccursAt(s, mid, i);
    var j :| OccursAt(mid, sub, j);
    forall k | 0 <= k < |sub|
      ensures s[i + j..i + j + |sub|][k] == sub[k]
    {
      assert sub[k] == mid[j + k] == s[i + j + k];
    }
    assert s[i + j..i + j + |sub|] == sub;
    OccursContains(s, sub, i + j);
  }

  // ---------------------------------------------------------------------------
  // Decimal digits
  // ---------------------------------------------------------------------------

  predicate IsDigit(c: char) {
    '0' <= c <= '9'
  }

  predicate AllDigits(s: string) {
    forall i :: 0 <= i < |s| ==> IsDigit(s[i])
  }

  function DigitChar(d: nat): (c: char)
    requires d < 10
    ensures IsDigit(c)
  {
    (('0' as int) + d) as char
  }

  function DigitValue(c: char): (d: nat)
    requires IsDigit(c)
    ensures d < 10
  {
    c as int - '0' as int
  }

  /** The value of a string of decimal digits, most significant first. */
  function DigitsValue(s: string): nat
    requires AllDigits(s)
    decreases |s|
  {
    if |s| == 0 then 0 else DigitsValue(s[..|s| - 1]) * 10 + DigitValue(s[|s| - 1])
  }

  /** `String(n)` for a non-negative integer: the shortest decimal rendering,
      which has no leading zero. */
  function NatToString(n: nat): (s: string)
    ensures |s| > 0 && AllDigits(s)
    ensures |s| > 1 ==> s[0] != '0'
    ensures n < 10 <==> |s| == 1
  {
    if n < 10 then [DigitChar(n)] else NatToString(n / 10) + [DigitChar(n % 10)]
  }

  /** A non-empty string of digits read as a number; anything else is rejected. */
  function ParseNat(s: string): Option<nat> {
    if |s| > 0 && AllDigits(s) then Some(DigitsValue(s)) else None
  }

  /** Reading back a rendered number gives the number. */
  lemma {:induction false} ParseNatToString(n: nat)
    ensures ParseNat(NatToString(n)) == Some(n)
  {
    var s := NatToString(n);
    if n >= 10 {
      ParseNatToString(n / 10);
      assert s[..|s| - 1] == NatToString(n / 10);
      assert DigitValue(s[|s| - 1]) == n % 10;
    } else {
      assert s == [DigitChar(n)];
      assert s[..0] == [];
      assert DigitsValue(s[..0]) == 0;
      assert DigitValue(s[0]) == n;
      assert DigitsValue(s) == n;
    }
  }

  /** A leading zero does not change the value of a digit string. */
  lemma {:induction false} LeadingZeroValue(s: string)
    requires AllDigits(s)
    ensures AllDigits("0" + s) && DigitsValue("0" + s) == DigitsValue(s)
    decreases |s|
  {
    if |s| > 0 {
      LeadingZeroValue(s[..|s| - 1]);
      assert ("0" + s)[..|s|] == "0" + s[..|s| - 1];
    }
  }

  /** `s.padStart(2, '0')`: strings shorter than two characters get zeros in
      front; longer ones are returned as they are. */
  function PadStart2(s: string): (r: string)
    ensures |s| >= 2 ==> r == s
    ensures |s| < 2 ==>
              |r| == 2 && r[2 - |s|..] == s && forall i :: 0 <= i < 2 - |s| ==> r[i] == '0'
    decreases 2 - |s|
  {
    if |s| >= 2 then s else PadStart2("0" + s)
  }

  /** `String(n)` for any integer: a minus sign in front of negatives. */
  function IntToString(n: int): (s: string)
    ensures |s| > 0
    ensures n < 0 <==> s[0] == '-'
  {
    if n < 0 then "-" + NatToString(-n) else NatToString(n)
  }

  /** An optional minus sign followed by digits, read as an integer. */
  function ParseInt(s: string): Option<int> {
    if |s| > 0 && s[0] == '-' then
      match ParseNat(s[1..])
      case Some(v) => Some(-(v as int))
      case None => None
    else
      match ParseNat(s)
      case Some(v) => Some(v as int)
      case None => None
  }

  /** Reading back a rendered integer gives the integer. */
  lemma IntToStringRoundTrip(n: int)
    ensures ParseInt(IntToString(n)) == Some(n)
  {
    if n < 0 {
      ParseNatToString(-n);
      assert IntToString(n)[1..] == NatToString(-n);
    } else {
      ParseNatToString(n);
    }
  }

  // ---------------------------------------------------------------------------
  // Splitting at a delimiter
  // ---------------------------------------------------------------------------

  /** The part of `s` before the first `c`, and the part after it;
      `None` when `c` does not occur. */
  function SplitAt(s: string, c: char): (r: Option<(string, string)>)
    ensures r.Some? ==> s == r.value.0 + [c] + r.value.1 && c !in r.value.0
    ensures r.None? ==> c !in s
    decreases |s|
  {
    if |s| == 0 then None
    else if s[0] == c then Some(([], s[1..]))
    else
      match SplitAt(s[1..], c)
      case Some((a, b)) => Some(([s[0]] + a, b))
      case None => None
  }

  /** Splitting undoes a join whose left part avoids the delimiter. */
  lemma {:induction false} SplitAtJoin(a: string, c: char, b: string)
    requires c !in a
    ensures SplitAt(a + [c] + b, c) == Some((a, b))
    decreases |a|
  {
    if |a| > 0 {
      SplitAtJoin(a[1..], c, b);
      assert (a + [c] + b)[1..] == a[1..] + [c] + b;
      assert [a[0]] + a[1..] == a;
    } else {
      assert (a + [c] + b)[1..] == b;
    }
  }

  /** A rendered integer never contains a character that is not a digit or
      its leading minus sign. */
  lemma IntToStringAvoids(n: int, c: char)
    requires !IsDigit(c) && c != '-'
    ensures c !in IntToString(n)
  {
  }
}

=== FILE: upi_payment.dfy ===
/** UPIPayment: the `upi://pay` deep link and the transaction-id submission
    that asks the backend to verify a payment. */
module UpiPayment {
  import opened Outcomes
  import opened Text
  import opened Media
  import opened Decimal
  import opened Premium

  const UpiId: string := "yourname@googleplay"

  /** Everything in the link before the amount. */
  const LinkHead: string := "upi://pay?pa=" + UpiId + "&pn=YouTube%20Downloader&am="
  /** Between the amount and the day count. */
  const NoteHead: string := "tn=Premium%20"
  /** Between the day count and the timestamp, after its leading '%'. */
  const RefHead: string := "20Days&tr=YTD"

  /** `generateUPILink()` with `Date.now()` as `nowMs`: payee, payee name,
      the price rounded to whole units, a note naming the days, and a
      reference built from the clock. */
  function UpiLink(price: real, daysCount: int, nowMs: nat): (link: string)
    ensures StartsWith(link, LinkHead)
  {
    LinkHead + AmountPart(RoundReal(price), daysCount, nowMs)
  }

  /** The link after its head: amount, '&', then the note. */
  function AmountPart(amount: int, daysCount: int, nowMs: nat): string {
    IntToString(amount) + "&" + (NoteHead + NotePart(daysCount, nowMs))
  }

  /** The note after its head: days, '%', then the reference. */
  function NotePart(daysCount: int, nowMs: nat): string {
    IntToString(daysCount) + "%" + (RefHead + NatToString(nowMs))
  }

  /** What a payment app reads from the link: amount, days and the reference time. */
  datatype LinkFields = LinkFields(amount: int, daysCount: int, reference: nat)

  /** `s` without `prefix`, if it starts with it. */
  function DropPrefix(s: string, prefix: string): (r: Option<string>)
    ensures r.Some? <==> StartsWith(s, prefix)
    ensures r.Some? ==> s == prefix + r.value
  {
    if StartsWith(s, prefix) then Some(s[|prefix|..]) else None
  }

  /** Reads "<days>%20Days&tr=YTD<reference>" back. */
  function ParseNote(afterNote: string): Option<(int, nat)> {
    match SplitAt(afterNote, '%')
    case None => None
    case Some((days, afterDays)) =>
      match DropPrefix(afterDays, RefHead)
      case None => None
      case Some(reference) =>
        match (ParseInt(days), ParseNat(reference))
        case (Some(d), Some(t)) => Some((d, t))
        case _ => None
  }

  /** Reads "<amount>&tn=Premium%20<days>..." back. */
  function ParseAmount(afterHead: string): Option<LinkFields> {
    match SplitAt(afterHead, '&')
    case None => None
    case Some((amount, afterAmount)) =>
      match DropPrefix(afterAmount, NoteHead)
      case None => None
      case Some(afterNote) =>
        match (ParseInt(amount), ParseNote(afterNote))
        case (Some(a), Some((d, t))) => Some(LinkFields(a, d, t))
        case _ => None
  }

  /** Reads the fields back out of a link. */
  function ParseUpiLink(link: string): Option<LinkFields> {
    match DropPrefix(link, LinkHead)
    case None => None
    case Some(afterHead) => ParseAmount(afterHead)
  }

  lemma NoteReadsBack(daysCount: int, nowMs: nat)
    ensures ParseNote(NotePart(daysCount, nowMs)) == Some((daysCount, nowMs))
  {
    var days := IntToString(daysCount);
    var reference := NatToString(nowMs);
    IntToStringAvoids(daysCount, '%');
    SplitAtJoin(days, '%', RefHead + reference);
    DropPrefixOf(RefHead, reference);
    IntToStringRoundTrip(daysCount);
    ParseNatToString(nowMs);
  }

  lemma AmountReadsBack(amount: int, daysCount: int, nowMs: nat)
    ensures ParseAmount(AmountPart(amount, daysCount, nowMs)) == Some(LinkFields(amount, daysCount, nowMs))
  {
    IntToStringAvoids(amount, '&');
    SplitAtJoin(IntToString(amount), '&', NoteHead + NotePart(daysCount, nowMs));
    DropPrefixOf(NoteHead, NotePart(daysCount, nowMs));
    IntToStringRoundTrip(amount);
    NoteReadsBack(daysCount, nowMs);
  }

  lemma DropPrefixOf(prefix: string, rest: string)
    ensures DropPrefix(prefix + rest, prefix) == Some(rest)
  {
    assert (prefix + rest)[..|prefix|] == prefix;
  }

  /** The link carries the rounded price, the day count and the clock
      reading, and a payment app recovers each of them. */
  lemma UpiLinkReadsBack(price: real, daysCount: int, nowMs: nat)
    ensures ParseUpiLink(UpiLink(price, daysCount, nowMs)) == Some(LinkFields(RoundReal(price), daysCount, nowMs))
  {
    DropPrefixOf(LinkHead, AmountPart(RoundReal(price), daysCount, nowMs));
    AmountReadsBack(RoundReal(price), daysCount, nowMs);
  }

  // ---------------------------------------------------------------------------
  // Submitting a transaction id
  // ---------------------------------------------------------------------------

  datatype UpiState = UpiState(transactionId: string, showTransactionForm: bool, isSubmitting: bool, message: string)

  /** `handleInitiatePayment`: the browser is sent to the link and the
      transaction-id form appears. */
  function InitiatePayment(st: UpiState, price: real, daysCount: int, nowMs: nat): (r: (UpiState, string))
    ensures r.0 == st.(showTransactionForm := true)
    ensures ParseUpiLink(r.1) == Some(LinkFields(RoundReal(price), daysCount, nowMs))
  {
    UpiLinkReadsBack(price, daysCount, nowMs);
    (st.(showTransactionForm := true), UpiLink(price, daysCount, nowMs))
  }

  /** The body posted to the verification endpoint. The id is sent as typed;
      `timestamp` is the clock's reading as an ISO 8601 string. */
  datatype VerifyRequest = VerifyRequest(
    transactionId: string, amount: real, daysCount: int, currency: string, upiId: string, timestamp: string)

  /** The endpoint's JSON body, read whatever the HTTP status. */
  datatype VerifyBody = VerifyBody(success: bool, message: Option<string>)

  /** How the request ended: a parsed body, or an exception with its message. */
  datatype VerifyAnswer = Answered(body: VerifyBody) | Failed(message: string)

  /** What `onPaymentInitiated` receives. */
  datatype PaymentNotice = PaymentNotice(transactionId: string, amount: real, daysCount: int, currency: string, status: string)

  const PendingStatus: string := "pending_verification"
  const EnterIdMessage: string := "❌ Please enter transaction ID"
  const ReceivedMessage: string := "✅ Payment received! Processing..."
  const PendingFallback: string := "Verification pending"

  /** `handleSubmitTransaction`'s outcome: the new state, the request sent if
      any, and the notice passed to the parent if any (its two-second
      delayed close goes with it). */
  datatype SubmitStep = SubmitStep(state: UpiState, request: Option<VerifyRequest>, notice: Option<PaymentNotice>)

  /** `handleSubmitTransaction` for the props `price`, `daysCount`, `currency`,
      with `nowIso` the clock's reading as `toISOString` renders it. */
  function SubmitTransaction(st: UpiState, price: real, daysCount: int, currency: string, nowIso: string,
                             answer: VerifyAnswer): (r: SubmitStep)
    // a blank id: message only, nothing sent, nothing else changes
    ensures IsBlank(st.transactionId) ==>
              r == SubmitStep(st.(message := EnterIdMessage), None, None)
    ensures !IsBlank(st.transactionId) ==>
              && r.request == Some(VerifyRequest(st.transactionId, price, daysCount, currency, UpiId, nowIso))
              && !r.state.isSubmitting
              && (r.notice.Some? <==> answer.Answered? && answer.body.success)
              && (r.notice.Some? ==>
                    && r.notice.value == PaymentNotice(st.transactionId, price, daysCount, currency, PendingStatus)
                    && r.state.message == ReceivedMessage)
              && (answer.Answered? && !answer.body.success ==>
                    r.state.message == "⚠️ " + OrElse(answer.body.message, PendingFallback))
              && (answer.Failed? ==> r.state.message == "❌ Error: " + answer.message)
    ensures r.state.transactionId == st.transactionId && r.state.showTransactionForm == st.showTransactionForm
  {
    TrimEmptyIffBlank(st.transactionId);
    if Trim(st.transactionId) == "" then SubmitStep(st.(message := EnterIdMessage), None, None)
    else
      var pending := st.(isSubmitting := true, message := "");
      var request := VerifyRequest(st.transactionId, price, daysCount, currency, UpiId, nowIso);
      match answer
      case Answered(body) =>
        if body.success then
          SubmitStep(pending.(message := ReceivedMessage, isSubmitting := false), Some(request),
                     Some(PaymentNotice(st.transactionId, price, daysCount, currency, PendingStatus)))
        else
          SubmitStep(pending.(message := "⚠️ " + OrElse(body.message, PendingFallback), isSubmitting := false),
                     Some(request), None)
      case Failed(message) =>
        SubmitStep(pending.(message := "❌ Error: " + message, isSubmitting := false), Some(request), None)
  }
}

=== FILE: url_classifier.dfy ===
/** The two playlist detectors: the one DownloadFormBeautiful applies while the
    URL is typed, and the looser `isPlaylistUrl` of DownloadForm. */
module UrlClassifier {
  import opened Text

  datatype UrlKind = SingleItem | PlaylistUrl

  /** The markers DownloadFormBeautiful looks for. */
  const PlaylistQueryMarker: string := "playlist?list="
  const PlaylistPathMarker: string := "/playlist/"
  const ListParamMarker: string := "&list="

  /** The markers DownloadForm looks for. */
  const ListMarker: string := "list="
  const PlaylistWord: string := "playlist"

  /** `newUrl.includes('playlist?list=') || newUrl.includes('/playlist/') || newUrl.includes('&list=')` */
  predicate IsPlaylistUrlStrict(u: string) {
    Contains(u, PlaylistQueryMarker) || Contains(u, PlaylistPathMarker) || Contains(u, ListParamMarker)
  }

  /** `url.includes('list=') || url.includes('playlist')` */
  predicate IsPlaylistUrlLoose(u: string) {
    Contains(u, ListMarker) || Contains(u, PlaylistWord)
  }

  /** DownloadFormBeautiful's classification: a playlist exactly when one of
      its three markers occurs somewhere in the URL, at any position. */
  function ClassifyStrict(u: string): (k: UrlKind)
    ensures k == PlaylistUrl <==>
              (exists i :: OccursAt(u, PlaylistQueryMarker, i))
              || (exists i :: OccursAt(u, PlaylistPathMarker, i))
              || (exists i :: OccursAt(u, ListParamMarker, i))
  {
    ContainsIffOccurs(u, PlaylistQueryMarker);
    ContainsIffOccurs(u, PlaylistPathMarker);
    ContainsIffOccurs(u, ListParamMarker);
    if IsPlaylistUrlStrict(u) then PlaylistUrl else SingleItem
  }

  /** DownloadForm's classification: a playlist exactly when "list=" or
      "playlist" occurs somewhere in the URL. */
  function ClassifyLoose(u: string): (k: UrlKind)
    ensures k == PlaylistUrl <==>
              (exists i :: OccursAt(u, ListMarker, i)) || (exists i :: OccursAt(u, PlaylistWord, i))
  {
    ContainsIffOccurs(u, ListMarker);
    ContainsIffOccurs(u, PlaylistWord);
    if IsPlaylistUrlLoose(u) then PlaylistUrl else SingleItem
  }

  /** Every URL DownloadFormBeautiful treats as a playlist, DownloadForm treats
      as one too: each strict marker contains "list=" or "playlist". */
  lemma StrictImpliesLoose(u: string)
    ensures ClassifyStrict(u) == PlaylistUrl ==> ClassifyLoose(u) == PlaylistUrl
  {
    assert PlaylistQueryMarker[9..14] == ListMarker;
    OccursContains(PlaylistQueryMarker, ListMarker, 9);
    assert PlaylistPathMarker[1..9] == PlaylistWord;
    OccursContains(PlaylistPathMarker, PlaylistWord, 1);
    assert ListParamMarker[1..6] == ListMarker;
    OccursContains(ListParamMarker, ListMarker, 1);
    if Contains(u, PlaylistQueryMarker) {
      ContainsTransitive(u, PlaylistQueryMarker, ListMarker);
    } else if Contains(u, PlaylistPathMarker) {
      ContainsTransitive(u, PlaylistPathMarker, PlaylistWord);
    } else if Contains(u, ListParamMarker) {
      ContainsTransitive(u, ListParamMarker, ListMarker);
    }
  }

  /** The implication is strict: "?list=PL1" (a `list` parameter that is the
      first query parameter) is a playlist for DownloadForm only. */
  lemma LooseIsStrictlyWeaker()
    ensures ClassifyLoose("?list=PL1") == PlaylistUrl
    ensures ClassifyStrict("?list=PL1") == SingleItem
  {
    var u := "?list=PL1";
    assert u[1..6] == ListMarker;
    OccursContains(u, ListMarker, 1);
    ContainsIffOccurs(u, PlaylistQueryMarker);
    ContainsIffOccurs(u, PlaylistPathMarker);
    ContainsIffOccurs(u, ListParamMarker);
    forall i | 0 <= i <= 3 ensures !OccursAt(u, ListParamMarker, i) {
      assert u[i..i + |ListParamMarker|][0] == u[i] != '&';
    }
  }

  /** A single-video URL with an `&list=` parameter appended is a playlist:
      the marker wins over the `watch?v=` shape. */
  lemma WatchUrlWithListIsPlaylist(u: string, rest: string)
    ensures ClassifyStrict(u + ListParamMarker + rest) == PlaylistUrl
  {
    var w := u + ListParamMarker + rest;
    assert w[|u|..|u| + |ListParamMarker|] == ListParamMarker;
    OccursContains(w, ListParamMarker, |u|);
  }
}
